=== FILE: README.md ===
# JSON.h in Dafny

A model of `JSON.h`, a single-header C++ JSON value type, and proofs about it. The model covers:

- **The value.** The `JSON` variant over string, `int`, `double`, `bool`, Object, array and null.
  - Object is a `std::map`. It is modelled as an association list kept strictly sorted by `std::string`'s `operator<`.
  - The default constructor and the Object constructor with its key check are modelled.
  - So are `holds<T>`, `get<T>` and the `is_*` predicates, and both `operator[]`.
- **`Details::escape`.**
- **The writer.** `dump<indent_amount>` and `_dump`, with the indent width as a parameter. Width 0 is compact mode.
- **The reader.** `load` and the recursive-descent `_load` over a character cursor, modelled as written.

Every operation returns a `Result`, which is one of three cases:

- `Ok(value)`.
- `Fail(error)`: the `std::runtime_error` the header throws. Only the kind of error is kept.
- `Undefined`: the C++ code has undefined behaviour. This covers an unchecked `std::vector` index past the end, and a read past the terminating NUL of the input.

The input text is a `string` followed by an implicit `'\0'` at index `|s|`.

The reader is modelled with these quirks of the code:

- `expect` builds an error and never throws it, so each `expect` just advances one character.
- Number literals are skipped and read as `int` 0.
- `\t`, `\n` and `\r` inside a string decode to the letter, and the letter is then read again.
- The closing quote of a string is left unread.
- `{}` reads as the default value, an empty Object.
- A repeated key keeps the last value.
- Text after the first value is ignored.

Points where the code does less than a JSON reader might be expected to do:

- **`expect` never throws.** It builds its error message and drops it (JSON.h:204-210). A mismatched literal letter, a missing `]`, `}` or `:` is therefore passed over without an error.
- **The string loop never fails.** It stops at the NUL of unterminated text without an error, and leaves the cursor on the closing quote (JSON.h:228-256).
- **Numbers.** Any run of digits, `+`, `-` and `.` is skipped and yields `int` 0 (JSON.h:302-306).
- **String escapes.** After a backslash, `t`, `n` and `r` emit the letter and leave the cursor on it, so the letter is emitted twice (JSON.h:231-235). `\"`, `\'` and `\\` decode to the character itself (JSON.h:236-243).
- **`operator[](key)`.** A missing key gets a default `JSON()`, which is an empty Object, and the key is not checked (JSON.h:89-94). There is no read-only overload.

## Model

| member | source | states |
|---|---|---|
| Values.ExactlyOneIs | JSON.h:111-117 | exactly one of the seven `is_*` predicates holds of any value |
| Values.HoldsUnique | JSON.h:105-109 | two type arguments hold of the same value only if they are equal or are `double` and `float` |
| Values.Holds | JSON.h:105-109 | `holds<T>` tests the alternative; `holds<float>` is `holds<double>`. HoldsUnique and ExactlyOneIs state what it promises |
| Values.IsNull | JSON.h:111 | `is_null` is `holds<std::nullptr_t>`; with the other six it is covered by ExactlyOneIs, and GetNull succeeds exactly when it holds |
| Values.IsString | JSON.h:112 | `is_string` is `holds<std::string>`; GetString succeeds exactly when it holds |
| Values.IsInt | JSON.h:113 | `is_int` is `holds<int>`; GetInt succeeds exactly when it holds |
| Values.IsFloat | JSON.h:114 | `is_float` is `holds<double>`; GetDouble succeeds exactly when it holds |
| Values.IsBool | JSON.h:115 | `is_bool` is `holds<bool>`; GetBool succeeds exactly when it holds |
| Values.IsObject | JSON.h:116 | `is_object` is `holds<Object>`; GetObject and the key index succeed exactly when it holds |
| Values.IsArray | JSON.h:117 | `is_array` is `holds<std::vector<JSON>>`; GetArray succeeds, and the position index does not throw, exactly when it holds |
| Values.GetString | JSON.h:96-102 | `get<std::string>` returns the payload iff the value holds a string, and otherwise throws "Bad JSON access" |
| Values.GetInt | JSON.h:96-102 | `get<int>` returns the payload iff the value holds an `int`, and otherwise throws "Bad JSON access" |
| Values.GetDouble | JSON.h:96-102 | `get<double>` returns the payload iff the value holds a `double`, and otherwise throws "Bad JSON access" |
| Values.GetFloat | JSON.h:103 | `get<float>` succeeds exactly when `holds<float>` holds, and gives the same outcome as `get<double>` |
| Values.GetBool | JSON.h:96-102 | `get<bool>` returns the payload iff the value holds a `bool`, and otherwise throws |
| Values.GetObject | JSON.h:96-102 | `get<Object>` returns the map iff the value holds an Object, and otherwise throws |
| Values.GetArray | JSON.h:96-102 | `get<std::vector<JSON>>` returns the elements iff the value holds an array, and otherwise throws |
| Values.GetNull | JSON.h:96-102 | `get<std::nullptr_t>` succeeds iff the value is null, and otherwise throws |
| Values.Default | JSON.h:52-54 | the default value is an empty Object and is not null |
| Values.ScanKey | JSON.h:62-66 | the inner loop over a key's characters accepts exactly the keys made of alphanumerics and `_` |
| Values.ScanKeys | JSON.h:61-67 | the outer loop accepts exactly when every key of the map is accepted |
| Values.FromObject | JSON.h:56-69 | the Object constructor throws "Bad JSON object key" iff some key has a character that is neither alphanumeric nor `_`; otherwise it stores the map; it is never undefined |
| Values.EmptyKeyAccepted | JSON.h:59-67 | a map with the empty key is accepted, because there is no character to reject |
| Values.IndexAt | JSON.h:82-87 | `[i]` throws "Bad JSON array access" iff the receiver is not an array; it is undefined iff the index is past the end; otherwise it returns that element |
| Values.IndexKey | JSON.h:89-94 | `[key]` throws "Bad JSON map access" iff the receiver is not an Object. On an Object the key is found afterwards. A missing key gets the default value, an empty Object, and exactly that key is added. No other key's entry changes, and an existing key leaves the receiver unchanged |
| Values.IndexKeyAgain | JSON.h:89-94 | indexing the same key a second time returns the same copy and changes the receiver no further |
| OrderedMaps.KeyLessIrreflexive | JSON.h:43 | `std::string`'s `<`, which orders the map, is irreflexive |
| OrderedMaps.KeyLessTransitive | JSON.h:43 | the key order is transitive |
| OrderedMaps.KeyLessTotal | JSON.h:43 | any two different keys are ordered one way or the other |
| OrderedMaps.Lookup | JSON.h:91 | the map lookup inside `operator[](key)` gives no value exactly when the key is absent from the map |
| OrderedMaps.LookupSorted | JSON.h:43 | in a sorted map, the lookup inside `operator[](key)` on a stored key returns the value stored with it |
| OrderedMaps.Put | JSON.h:293 | `obj[key] = value` keeps the map sorted and adds exactly `key` to the key set. The key then maps to the new value, every other key maps to what it mapped to before, and no entry is invented |
| OrderedMaps.PutBehind | JSON.h:293 | inserting a key past the first entry keeps that entry in front, with the same guarantees as `Put` |
| OrderedMaps.PutOverwrite | JSON.h:293 | assigning to a key twice equals assigning the second value once (last write wins) |
| OrderedMaps.PutAppend | JSON.h:293 | assigning a key greater than every key present appends its entry at the end |
| Escaping.EscapeChar | JSON.h:24-35 | one character is written as one character, itself, unless it is one of the six; those are written as a backslash and then `t`, `n`, `r` or the character itself |
| Escaping.Escape | JSON.h:21-38 | the escaped text is as long as the input plus one per character of the six escaped ones. It contains no tab, newline or carriage return, and it contains a NUL exactly when the input does |
| Escaping.EscapeAppend | JSON.h:23 | the escaper works character by character: the escape of two texts joined is the two escapes joined |
| Escaping.EscapeAt | JSON.h:23-36 | input character `i` is written at `i` plus the number of escaped characters before it: copied when it is not one of the six, otherwise a backslash there followed by `t`, `n`, `r` or the character itself |
| Escaping.UnescapeFront | JSON.h:24-35 | one escaped character decodes back to itself in front of any following text |
| Escaping.UnescapeEscape | JSON.h:21-38 | the escaper loses nothing: reading each backslash pair as its character gives back the input |
| Escaping.EscapeUnchanged | JSON.h:32-34 | a string with none of the six characters is copied unchanged |
| Serializer.NatText | JSON.h:150 | the decimal text of a natural number is non-empty, all digits, and has no leading zero |
| Serializer.IntText | JSON.h:150 | the text of an `int` is made of number characters and starts with `-` exactly when the number is negative |
| Serializer.NatTextValue | JSON.h:150 | the digits written for a natural number read back as that number |
| Serializer.IntTextValue | JSON.h:150 | the text written for an `int` is a well-formed numeral that reads back as that `int` |
| Serializer.Spaces | JSON.h:140-141 | the `indent` array holds exactly `width` spaces |
| Serializer.Scalar | JSON.h:148-152 | the text of null, strings, `int`s, `double`s and booleans. ScalarOfDump reads null, booleans and `int`s back, the `int`s as 0. StringRoundTrip reads back top-level strings without tab, newline, carriage return or NUL. A double's text is read as `int` 0 |
| Serializer.Dump | JSON.h:138-198 | `_dump`; CompactLayout and PrettyLayout equate it with the compact and indented reference layouts, and ParseOfDump reads it back for readable values |
| Serializer.DumpElems | JSON.h:156-173 | the element loop; CompactElems and PrettyElems give its text, ElemsOfDump reads it back for readable elements |
| Serializer.DumpEntries | JSON.h:179-195 | the entry loop; CompactEntries and PrettyEntries give its text, EntriesOfDump reads it back for readable entries |
| Serializer.DumpTop | JSON.h:119-124 | `dump<width>()` writes from depth 0; CompactDumpSingleLine and LoadOfDump are stated about it |
| Layout.IndentIsSpaces | JSON.h:143-146 | `depth` copies of the indent array are `width * depth` spaces |
| Layout.NoIndent | JSON.h:143-146 | compact mode writes no line break and no indentation before a value or a closer |
| Layout.DumpLead | JSON.h:143-146 | the first-line flag only drops the value's own indentation |
| Layout.CompactLayout | JSON.h:148-197 | with width 0 the writer produces the compact layout for every value, whatever the depth and the first-line flag: `[e1, e2]`, `{"k": v, ...}` with keys in map order, and scalars as themselves |
| Layout.CompactArray | JSON.h:153-175 | a compact array is `[`, its elements joined by `, `, then `]` |
| Layout.CompactObject | JSON.h:176-197 | a compact Object is `{`, its `"key": value` pairs joined by `, `, then `}` |
| Layout.CompactElems | JSON.h:156-168 | the compact element loop writes the compact elements separated by `, `, with none after the last |
| Layout.CompactEntries | JSON.h:179-191 | the compact entry loop writes `"key": value` pairs separated by `, `, with none after the last |
| Layout.PrettyLayout | JSON.h:139-197 | with width > 0 every element and entry starts on a new line after `width * (depth + 1)` spaces, and the closer sits on its own line after `width * depth` spaces. Object values are written inline after `": "`. Without the first-line flag the value is preceded by its own `width * depth` spaces |
| Layout.PrettyInline | JSON.h:148-197 | the indented writer matches the indented layout for a value written inline |
| Layout.PrettyArray | JSON.h:153-175 | an indented array is `[`, its element lines joined by `,`, a line break, the closing indentation and `]` |
| Layout.PrettyObject | JSON.h:176-197 | an indented Object is `{`, its entry lines joined by `,`, a line break, the closing indentation and `}` |
| Layout.PrettyElems | JSON.h:156-173 | the indented element loop writes one line per element, each indented one level deeper |
| Layout.PrettyEntries | JSON.h:179-195 | the indented entry loop writes one line per entry: indentation, the key in quotes, `: `, then the value inline |
| Layout.CompactWithoutNewline | JSON.h:148-197 | the compact text of a value with valid keys has no line break, provided the float rendering writes none |
| Layout.ItemsWithoutNewline | JSON.h:156-168 | no compact element text holds a line break |
| Layout.PairsWithoutNewline | JSON.h:179-191 | no compact `"key": value` text holds a line break, because keys pass the constructor's check |
| Layout.CompactDumpSingleLine | JSON.h:119-124 | `dump<0>()` output never contains a newline, for any value whose keys pass the Object constructor's check, provided the float rendering writes none |
| Parser.RunEnd | JSON.h:201-203 | advancing over a run stops within the text, on the first character not in the run; the NUL is never in a run |
| Parser.RunEndSpan | JSON.h:201-203 | every character a run advances over is of the run's kind |
| Parser.SkipWs | JSON.h:201-203 | `skip_whitespace` stops within the text on a character that is not `isspace` |
| Parser.SkipWsSpan | JSON.h:201-203 | `skip_whitespace` passes over whitespace only |
| Parser.Expect | JSON.h:204-210 | `expect` never throws. It advances one character whenever the cursor is before the NUL, whatever the character. It is undefined exactly when the mismatch is the terminating NUL at index `|s|`, because its message reads past it |
| Parser.ExpectAll | JSON.h:217 | a run of `expect`s never throws; it advances by its length iff the text is that long, and is undefined otherwise |
| Parser.LexString | JSON.h:228-256 | the string loop ends within the text on a `"` or on the NUL and consumes neither |
| Parser.Literal | JSON.h:216-227 | `true`, `false` and `null` never throw: the value is produced whatever the following characters are, consuming exactly the literal's length; it is undefined iff the text ends first |
| Parser.Parse | JSON.h:200-314 | a value that is read consumes at least one character and ends within the text |
| Parser.ParseArray | JSON.h:257-274 | an array that is read consumes at least one character after the bracket and ends within the text |
| Parser.ParseElems | JSON.h:264-267 | a read round of the element loop consumes at least one character |
| Parser.NextElem | JSON.h:267-273 | the rest of the element loop, when it completes, consumes at least one character and ends within the text |
| Parser.ParseObject | JSON.h:275-301 | an Object that is read consumes at least one character after the brace and ends within the text |
| Parser.ParseMember | JSON.h:284-292 | a member that is read consumes at least one character, and its key passes the Object constructor's check |
| Parser.ParseEntries | JSON.h:283-294 | a read round of the entry loop consumes at least one character |
| Parser.NextEntry | JSON.h:294-300 | the rest of the entry loop, when it completes, consumes at least one character and ends within the text |
| Parser.CloseObject | JSON.h:295-298 | closing an Object consumes at least one character and ends within the text |
| Parser.Load | JSON.h:126-131 | `load`; LoadOfParse gives its outcome as that of reading from the start of the text, ignoring what follows the value |
| ParserFacts.LoadEndOfStream | JSON.h:212-215 | text that is empty, whitespace only, or whose first non-space character is a NUL throws "End of stream" |
| ParserFacts.ParseBadStart | JSON.h:302-311 | a first character that starts no literal, string, array, Object or number throws "Bad JSON" |
| ParserFacts.ParseLiterals | JSON.h:216-227 | `t`, `f` and `n` yield true, false and null, consuming exactly 4, 5 and 4 characters whatever they are, and are undefined when the text is shorter |
| ParserFacts.ParseNumber | JSON.h:302-307 | a number is the longest run of digits, `+`, `-` and `.` starting at the first non-space character, and is always read as `int` 0 |
| ParserFacts.ParseStringStops | JSON.h:228-256 | a string literal never fails; the cursor moves past the opening quote, passes no NUL, and stops on the closing quote or on the NUL, not after it |
| ParserFacts.ParseValid | JSON.h:200-314 | every tree `load` builds is sorted and has valid keys, so the Object constructor's check never throws inside the reader |
| ParserFacts.ArrayValid | JSON.h:257-274 | arrays that are read hold only such trees |
| ParserFacts.ElemsValid | JSON.h:264-273 | the element loop keeps every stored element sorted with valid keys |
| ParserFacts.NextValid | JSON.h:267-273 | so does its continuation after each element |
| ParserFacts.ObjectValid | JSON.h:275-301 | Objects that are read are sorted with valid keys |
| ParserFacts.MemberValid | JSON.h:284-292 | a member that is read has a valid key and a valid value |
| ParserFacts.PutEntriesOk | JSON.h:293 | storing a valid member keeps every entry valid |
| ParserFacts.CloseValid | JSON.h:295-298 | closing a map of valid entries yields exactly that map, without the key check throwing |
| ParserFacts.EntriesValid | JSON.h:283-300 | the entry loop keeps every stored entry valid |
| ParserFacts.NextEntryValid | JSON.h:294-300 | so does its continuation after each member |
| ParserFacts.ParseOpensObject | JSON.h:275 | proof step, one unfolding of the reader: a `{` after the whitespace starts the Object reader just after it |
| ParserFacts.ParseOpensArray | JSON.h:257 | proof step, one unfolding of the reader: a `[` after the whitespace starts the array reader just after it |
| ParserFacts.ObjectOpens | JSON.h:276-282 | proof step, one unfolding of the reader: an Object that does not close at once starts the entry loop with an empty map |
| ParserFacts.ArrayOpens | JSON.h:259-264 | proof step, one unfolding of the reader: an array that does not close at once starts the element loop with no elements |
| ParserFacts.LoadOfParse | JSON.h:126-131 | proof step, one unfolding of the reader: `load` has the outcome of reading from the start of the text, keeping the value and ignoring what follows |
| ParserFacts.LoadObject | JSON.h:126-131 | proof step, one unfolding of the reader: text starting with `{` loads as the Object read after it |
| ParserFacts.LoadArray | JSON.h:126-131 | proof step, one unfolding of the reader: text starting with `[` loads as the array read after it |
| ParserFacts.ElemsStep | JSON.h:264-267 | proof step, one unfolding of the reader: one element read is appended before the loop looks at what follows |
| ParserFacts.ElemsContinue | JSON.h:264-272 | proof step, one unfolding of the reader: an element followed by a comma: the loop goes round after the comma with the element appended |
| ParserFacts.ElemsStop | JSON.h:264-271 | proof step, one unfolding of the reader: an element followed by anything else: the array ends one character later, whatever that character is |
| ParserFacts.MemberRead | JSON.h:284-292 | proof step, one unfolding of the reader: a member is the key between the quotes, then `:` and the value read after the whitespace |
| ParserFacts.EntriesStep | JSON.h:292-294 | proof step, one unfolding of the reader: a member read is stored with `obj[key] = value` before the loop looks at what follows |
| ParserFacts.EntriesContinue | JSON.h:292-299 | proof step, one unfolding of the reader: a member followed by a comma: the loop goes round with the member stored |
| ParserFacts.EntriesStop | JSON.h:292-297 | proof step, one unfolding of the reader: a member followed by anything else: the Object is closed with the member stored |
| ParserFacts.LexPlain | JSON.h:230-254 | over characters that are not `"`, `\` or NUL, the string loop reads the text itself |
| ParserFacts.LetterEscapeTwice | JSON.h:229-255 | a backslash before `t`, `n` or `r` emits the letter and then reads it again, so `"\t"`, `"\n"` and `"\r"` load as `tt`, `nn` and `rr` |
| ParserFacts.UnknownEscapeKept | JSON.h:229-255 | a backslash before any other plain character except `'` is kept: the string loop emits the backslash and then reads the character as it is |
| ParserFacts.TabDecodesTwice | JSON.h:231-235 | the escaped tab `"\t"` loads as the two-letter string `tt` |
| ParserFacts.TruncatedFirst | JSON.h:264-272 | in `[1, 2` the first element is read as 0 and the loop goes round after the comma |
| ParserFacts.TruncatedArray | JSON.h:204-210 | loading `[1, 2` is undefined: the closing `expect` meets the NUL and its message reads past it |
| ParserFacts.EmbeddedNulArray | JSON.h:204-210 | a NUL inside an array is passed over by the closing `expect`, which reads the `]` after it: `[1`, NUL, `]` loads as `[0]` |
| ParserFacts.EmptyObject | JSON.h:276-280 | `{}` loads as the default value, an empty Object |
| ParserFacts.RepeatedFirst | JSON.h:284-292 | the first member of `{"a":true,"a":null}` is read |
| ParserFacts.RepeatedSecond | JSON.h:284-292 | the second member of that text is read |
| ParserFacts.RepeatedTail | JSON.h:293-297 | storing the second member overwrites the first |
| ParserFacts.RepeatedEntries | JSON.h:283-300 | the entry loop over that text ends with one entry |
| ParserFacts.RepeatedKey | JSON.h:293 | `{"a":true,"a":null}` loads as an Object with the single entry `"a": null` (last write wins) |
| ParserFacts.TwoStringsFirst | JSON.h:228-256 | in `["a", "b"]` the first string is read and the cursor stays on its closing quote |
| ParserFacts.TwoStringsArray | JSON.h:264-271 | `["a", "b"]` loads as `["a"]`: the closing `expect` consumes the unread quote and the second string is never read |
| RoundTrip.Zeroed | JSON.h:304-306 | zeroing the numbers keeps every value's alternative |
| RoundTrip.PlainReadable | JSON.h:153-197 | a plain, sorted value satisfies the element-by-element condition the readers walk |
| RoundTrip.ScalarOfDump | JSON.h:148-152 | written null, `true`, `false` and `int` scalars read back, with numbers as 0 |
| RoundTrip.ParseOfDump | JSON.h:138-314 | a readable value written at any depth and width reads back as that value with its numbers zeroed, ending exactly where its text ends |
| RoundTrip.ArrayValueOfDump | JSON.h:153-175 | a written array reads back element by element |
| RoundTrip.ObjectValueOfDump | JSON.h:176-197 | a written Object reads back entry by entry, in key order |
| RoundTrip.ArrayOfDump | JSON.h:257-274 | the text after `[` reads back as the elements, ending after `]` |
| RoundTrip.ObjectOfDump | JSON.h:275-301 | the text after `{` reads back as the entries, ending after `}` |
| RoundTrip.EmptyArrayOfDump | JSON.h:259-263 | an empty array's text reads back as an empty array |
| RoundTrip.EmptyObjectOfDump | JSON.h:276-280 | an empty Object's text reads back as an empty Object |
| RoundTrip.ElemsOfDump | JSON.h:264-273 | the element loop over written elements collects exactly those elements, zeroed |
| RoundTrip.EntriesOfDump | JSON.h:283-300 | the entry loop over written entries collects exactly those entries, zeroed, appending each because the keys ascend |
| RoundTrip.KeyRead | JSON.h:184-185 | a key written in quotes followed by `: ` is read back as that key by the key loop and the `expect`s |
| RoundTrip.MemberOfDump | JSON.h:284-292 | a written `"key": value` reads back as that member |
| RoundTrip.LoadOfDump | JSON.h:119-131 | `load(dump<w>(v))` gives back `v` with its `int`s as 0, for every sorted value without strings or doubles whose keys pass the constructor's check, at every indent width |
| RoundTrip.LexEscaped | JSON.h:230-254 | over escaped text without tab, newline, carriage return or NUL, the string loop copies plain characters and turns a backslash before `"`, `'` or `\` into that character, giving back the unescaped text and stopping on the quote after it |
| RoundTrip.LexOne | JSON.h:230-252 | the escape of one character other than tab, newline, carriage return and NUL is read back by one round of the string loop as that character |
| RoundTrip.StringText | JSON.h:149 | a string value is written as its escape in quotes, at any width |
| RoundTrip.QuotedLoad | JSON.h:126-131 | escaped text in quotes at the start of the input loads as the unescaped string |
| RoundTrip.StringRoundTrip | JSON.h:149 | a top-level string without tab, newline, carriage return or NUL loads back as itself from its dump, including `"`, `'` and `\` |
| RoundTrip.TabRoundTrip | JSON.h:25 | the dump of a one-tab string loads back as `tt`, not as the tab |
| RoundTrip.StringsInArrayLost | JSON.h:230-255 | the compact dump of `["a", "b"]` loads back as `["a"]` |

## Left out

- `main.cpp` is a demo driver that only prints. It is not part of this model.
- `stream << double` is not modelled. A `double` is kept as an opaque bit pattern and its text is a parameter of the writer.
- Values.GetFloat: the narrowing of `get<float>` from `double` to `float` is not modelled; it returns the `double` payload.
- The C++ template machinery is not modelled: `all_same`, the variadic array constructor, the `const char*` constructor and the global `Array` helper. Values are built with the datatype's constructors.
- Only the kind of each thrown error is modelled, not the message text built with `stringstream`.
- `isspace`, `isalnum` and `isdigit` are modelled in the "C" locale only.
- `int` payloads are 32-bit. No overflow arises in the modelled code, because the reader yields only 0.
- The input is the `std::string`'s buffer with its terminating NUL at index `|s|`. A NUL inside the text does not end it: `_load`'s dispatch (at every nesting level), `skip_whitespace`, the key loop and the string loop stop at a NUL, while `expect` passes over it and reads the next character (EmbeddedNulArray).
- RoundTrip.LoadOfDump: the round trip is proved only for values without strings or doubles, because the string reader leaves the closing quote unread, which loses whatever follows the string inside a container (StringsInArrayLost). A top-level container whose last item is a string still reads back, because its closing `expect` consumes the quote and the closer it leaves unread is ignored; nested, that unread closer ends the enclosing container early. StringRoundTrip covers top-level strings.
- RoundTrip.StringRoundTrip: restricted to strings without tab, newline, carriage return or NUL. The reader decodes `\t`, `\n` and `\r` as doubled letters (TabRoundTrip), and the string loop stops at a NUL.
- C++ `char` bytes are modelled as Dafny Unicode `char`s. A non-ASCII character is one character rather than several bytes. `isspace`, `isalnum` and `isdigit` are simply false on it, whereas passing a negative `char` to them is undefined in C++.
- The stream buffers of `dump` and of the string loop are modelled as string concatenation.

=== FILE: chars.dfy ===
/** The character classes of <cctype> the header relies on, in the "C" locale. */
module Chars {

  /** `std::isspace`: space, tab, newline, vertical tab, form feed, carriage return. */
  predicate IsSpace(c: char) {
    c == ' ' || c == '\t' || c == '\n' || c == '\U{0B}' || c == '\U{0C}' || c == '\r'
  }

  /** `std::isdigit`. */
  predicate IsDigit(c: char) {
    '0' <= c <= '9'
  }

  /** `std::isalnum`. */
  predicate IsAlnum(c: char) {
    IsDigit(c) || 'a' <= c <= 'z' || 'A' <= c <= 'Z'
  }

  /** A character allowed in an Object key: alphanumeric or underscore. */
  predicate IsKeyChar(c: char) {
    IsAlnum(c) || c == '_'
  }

  /** A character the parser treats as part of a number literal. */
  predicate IsNumChar(c: char) {
    IsDigit(c) || c == '+' || c == '-' || c == '.'
  }

  /** A key passes the Object constructor's check: every character is a key
      character.  The empty key has nothing to reject. */
  predicate ValidKey(k: string) {
    forall i :: 0 <= i < |k| ==> IsKeyChar(k[i])
  }
}

=== FILE: escape.dfy ===
/** `Details::escape`: the string escaper the serialiser applies to string
    payloads (JSON.h lines 21-38). */
module Escaping {
  /** The six characters the escaper rewrites. */
  predicate IsEscaped(c: char) {
    c == '\t' || c == '\n' || c == '\r' || c == '"' || c == '\'' || c == '\\'
  }

  /** One character of output per input character, except a backslash in
      front of the six: tab, newline and carriage return become a letter, and
      `"`, `'` and `\` fall through to be written after their backslash. */
  function EscapeChar(c: char): (r: string)
    ensures |r| == if IsEscaped(c) then 2 else 1
    ensures r[0] == '\\' <==> IsEscaped(c)
    ensures !IsEscaped(c) ==> r[0] == c
    ensures IsEscaped(c) ==> r[1] == Letter(c)
  {
    if c == '\t' then "\\t"
    else if c == '\n' then "\\n"
    else if c == '\r' then "\\r"
    else if c == '"' || c == '\'' || c == '\\' then ['\\', c]
    else [c]
  }

  /** What follows the backslash in the escape of one of the six: `t`, `n`
      and `r` for the three control characters, the character itself for
      the other three. */
  function Letter(c: char): char
  {
    if c == '\t' then 't' else if c == '\n' then 'n' else if c == '\r' then 'r' else c
  }

  function CountEscaped(s: string): nat
  {
    if |s| == 0 then 0 else (if IsEscaped(s[0]) then 1 else 0) + CountEscaped(s[1..])
  }

  function Escape(s: string): (r: string)
    ensures |r| == |s| + CountEscaped(s)
    ensures '\t' !in r && '\n' !in r && '\r' !in r
    ensures '\0' in r <==> '\0' in s
  {
    if |s| == 0 then "" else EscapeChar(s[0]) + Escape(s[1..])
  }

  /** Escaping distributes over concatenation: the escaper works one
      character at a time. */
  lemma {:induction false} EscapeAppend(a: string, b: string)
    ensures Escape(a + b) == Escape(a) + Escape(b)
    ensures CountEscaped(a + b) == CountEscaped(a) + CountEscaped(b)
  {
    if |a| != 0 {
      assert (a + b)[1..] == a[1..] + b;
      EscapeAppend(a[1..], b);
    } else {
      assert a + b == b;
    }
  }

  /** Where each input character lands: character `i` is written at `p`,
      its position shifted by the escaped characters before it.  A
      character that is not one of the six is copied there; one of the six
      becomes a backslash at `p` followed by `t`, `n`, `r` or the character
      itself at `p + 1`. */
  lemma EscapeAt(s: string, i: nat)
    requires i < |s|
    ensures var p := i + CountEscaped(s[..i]);
            && p + |EscapeChar(s[i])| <= |Escape(s)|
            && (!IsEscaped(s[i]) ==> Escape(s)[p] == s[i])
            && (IsEscaped(s[i]) ==> Escape(s)[p] == '\\')
            && (s[i] == '\t' ==> Escape(s)[p + 1] == 't')
            && (s[i] == '\n' ==> Escape(s)[p + 1] == 'n')
            && (s[i] == '\r' ==> Escape(s)[p + 1] == 'r')
            && (s[i] in {'"', '\'', '\\'} ==> Escape(s)[p + 1] == s[i])
  {
    var pre, e, post := s[..i], EscapeChar(s[i]), s[i + 1..];
    assert s == pre + ([s[i]] + post);
    EscapeAppend(pre, [s[i]] + post);
    assert Escape([s[i]] + post) == e + Escape(post);
    var p := i + CountEscaped(pre);
    assert |Escape(pre)| == p;
    assert Escape(s) == Escape(pre) + (e + Escape(post));
    assert Escape(s)[p] == e[0];
    if |e| == 2 {
      assert Escape(s)[p + 1] == e[1];
    }
  }

  /** The decoding a reader of the escaped text expects: a backslash and the
      letter t, n or r stand for tab, newline and carriage return; a
      backslash and any other character stand for that character. */
  function Unescape(s: string): string
  {
    if |s| >= 2 && s[0] == '\\' then [Unescaped(s[1])] + Unescape(s[2..])
    else if |s| != 0 then [s[0]] + Unescape(s[1..])
    else ""
  }

  function Unescaped(c: char): char
  {
    if c == 't' then '\t' else if c == 'n' then '\n' else if c == 'r' then '\r' else c
  }

  /** Decoding reads one escaped character back off the front. */
  lemma UnescapeFront(c: char, rest: string)
    ensures Unescape(EscapeChar(c) + rest) == [c] + Unescape(rest)
  {
    var e := EscapeChar(c);
    if |e| == 2 {
      assert (e + rest)[0] == '\\' && (e + rest)[1] == e[1];
      assert (e + rest)[2..] == rest;
    } else {
      assert (e + rest)[0] == c && c != '\\';
      assert (e + rest)[1..] == rest;
    }
  }

  /** Escaping loses nothing: decoding the escaped text gives the input back. */
  lemma {:induction false} UnescapeEscape(s: string)
    ensures Unescape(Escape(s)) == s
  {
    if |s| != 0 {
      UnescapeEscape(s[1..]);
      assert Escape(s) == EscapeChar(s[0]) + Escape(s[1..]);
      UnescapeFront(s[0], Escape(s[1..]));
      assert s == [s[0]] + s[1..];
    }
  }

  /** A string with none of the six characters is written unchanged. */
  lemma {:induction false} EscapeUnchanged(s: string)
    requires forall i :: 0 <= i < |s| ==> !IsEscaped(s[i])
    ensures Escape(s) == s
  {
    if |s| != 0 {
      EscapeUnchanged(s[1..]);
      assert s == [s[0]] + s[1..];
    }
  }
}

=== FILE: layout.dfy ===
/** Reference layouts for the serialiser's two modes, and the lemmas that
    tie `Dump` to them. */
module Layout {
  import opened Chars
  import opened OrderedMaps
  import opened Values
  import opened Serializer

  /** `parts[0] + sep + parts[1] + ... + parts[n-1]`. */
  function Join(sep: string, parts: seq<string>): string
  {
    if |parts| == 0 then ""
    else if |parts| == 1 then parts[0]
    else parts[0] + sep + Join(sep, parts[1..])
  }

  /** The compact text of a value: `[e1, e2]`, `{"k": v, ...}`, scalars as
      themselves; it does not depend on depth. */
  function Compact(v: Json, fmt: FloatFormat): string
    decreases v
  {
    match v
    case JArray(es) => "[" + Join(", ", CompactItems(es, fmt)) + "]"
    case JObject(es) => "{" + Join(", ", CompactPairs(es, fmt)) + "}"
    case _ => Scalar(v, fmt)
  }

  /** The compact texts of the elements, one per element. */
  function CompactItems(es: seq<Json>, fmt: FloatFormat): (r: seq<string>)
    ensures |r| == |es|
    decreases es
  {
    if |es| == 0 then [] else [Compact(es[0], fmt)] + CompactItems(es[1..], fmt)
  }

  /** The compact `"key": value` texts of the entries, one per entry. */
  function CompactPairs(es: seq<Entry<Json>>, fmt: FloatFormat): (r: seq<string>)
    ensures |r| == |es|
    decreases es
  {
    if |es| == 0 then []
    else [KeyText(es[0].key) + Compact(es[0].val, fmt)] + CompactPairs(es[1..], fmt)
  }

  /** The indented text of a value written inline at `depth`: every element
      or entry on a line of its own after `width * (depth + 1)` spaces, the
      closer on a line of its own after `width * depth` spaces, Object
      values inline after `": "`. */
  function Pretty(v: Json, width: nat, depth: nat, fmt: FloatFormat): string
    requires width > 0
    decreases v
  {
    match v
    case JArray(es) =>
      "[" + Join(",", PrettyItems(es, width, depth + 1, fmt)) + "\n" + Spaces(width * depth) + "]"
    case JObject(es) =>
      "{" + Join(",", PrettyPairs(es, width, depth + 1, fmt)) + "\n" + Spaces(width * depth) + "}"
    case _ => Scalar(v, fmt)
  }

  /** One line per element: line break, indentation, the element. */
  function PrettyItems(es: seq<Json>, width: nat, depth: nat, fmt: FloatFormat): (r: seq<string>)
    requires width > 0
    ensures |r| == |es|
    decreases es
  {
    if |es| == 0 then []
    else ["\n" + Spaces(width * depth) + Pretty(es[0], width, depth, fmt)]
         + PrettyItems(es[1..], width, depth, fmt)
  }

  /** One line per entry: line break, indentation, key, colon, the value. */
  function PrettyPairs(es: seq<Entry<Json>>, width: nat, depth: nat, fmt: FloatFormat): (r: seq<string>)
    requires width > 0
    ensures |r| == |es|
    decreases es
  {
    if |es| == 0 then []
    else ["\n" + Spaces(width * depth) + KeyText(es[0].key) + Pretty(es[0].val, width, depth, fmt)]
         + PrettyPairs(es[1..], width, depth, fmt)
  }

  /** `depth` copies of `width` spaces are `width * depth` spaces. */
  lemma {:induction false} IndentIsSpaces(width: nat, depth: nat)
    ensures Indent(width, depth) == Spaces(width * depth)
  {
    if depth != 0 {
      IndentIsSpaces(width, depth - 1);
      assert width * depth == width + width * (depth - 1);
    }
  }

  /** Joining a list with a first part in front. */
  lemma {:induction false} JoinFront(sep: string, first: string, rest: seq<string>)
    ensures Join(sep, [first] + rest) == if |rest| == 0 then first else first + sep + Join(sep, rest)
  {
    var parts := [first] + rest;
    assert parts[0] == first && parts[1..] == rest;
  }

  /** Compact mode writes no line breaks and no indentation. */
  lemma {:induction false} NoIndent(depth: nat)
    ensures Newline(0) + Indent(0, depth) == ""
    ensures Closing(0, depth) == ""
  {
    IndentIsSpaces(0, depth);
  }

  /** Compact mode ignores depth and the first-line flag and writes the
      compact layout. */
  lemma {:induction false} CompactLayout(v: Json, depth: nat, firstLine: bool, fmt: FloatFormat)
    ensures Dump(v, 0, depth, firstLine, fmt) == Compact(v, fmt)
    decreases v, 2
  {
    NoIndent(depth);
    match v {
      case JArray(es) => CompactArray(es, depth, firstLine, fmt);
      case JObject(es) => CompactObject(es, depth, firstLine, fmt);
      case _ =>
    }
  }

  lemma {:induction false} CompactArray(es: seq<Json>, depth: nat, firstLine: bool, fmt: FloatFormat)
    ensures Dump(JArray(es), 0, depth, firstLine, fmt) == Compact(JArray(es), fmt)
    decreases es, 1
  {
    NoIndent(depth);
    CompactElems(es, depth + 1, fmt);
    assert Dump(JArray(es), 0, depth, firstLine, fmt) == "" + ("[" + DumpElems(es, 0, depth + 1, fmt) + "" + "]");
  }

  lemma {:induction false} CompactObject(es: seq<Entry<Json>>, depth: nat, firstLine: bool, fmt: FloatFormat)
    ensures Dump(JObject(es), 0, depth, firstLine, fmt) == Compact(JObject(es), fmt)
    decreases es, 1
  {
    NoIndent(depth);
    CompactEntries(es, depth + 1, fmt);
    assert Dump(JObject(es), 0, depth, firstLine, fmt) == "" + ("{" + DumpEntries(es, 0, depth + 1, fmt) + "" + "}");
  }

  lemma {:induction false} CompactElems(es: seq<Json>, depth: nat, fmt: FloatFormat)
    ensures DumpElems(es, 0, depth, fmt) == Join(", ", CompactItems(es, fmt))
    decreases es, 0
  {
    if |es| != 0 {
      var rest := es[1..];
      CompactLayout(es[0], depth, false, fmt);
      CompactElems(rest, depth, fmt);
      JoinFront(", ", Compact(es[0], fmt), CompactItems(rest, fmt));
      CompactStep(Newline(0), "", Dump(es[0], 0, depth, false, fmt), Compact(es[0], fmt), Separator(0, |es| > 1),
                  DumpElems(rest, 0, depth, fmt), CompactItems(rest, fmt));
    }
  }

  lemma {:induction false} CompactEntries(es: seq<Entry<Json>>, depth: nat, fmt: FloatFormat)
    ensures DumpEntries(es, 0, depth, fmt) == Join(", ", CompactPairs(es, fmt))
    decreases es, 0
  {
    if |es| != 0 {
      var rest := es[1..];
      NoIndent(depth);
      CompactLayout(es[0].val, depth, true, fmt);
      CompactEntries(rest, depth, fmt);
      JoinFront(", ", KeyText(es[0].key) + Compact(es[0].val, fmt), CompactPairs(rest, fmt));
      CompactStep(Newline(0) + Indent(0, depth), KeyText(es[0].key), Dump(es[0].val, 0, depth, true, fmt),
                  Compact(es[0].val, fmt), Separator(0, |es| > 1), DumpEntries(rest, 0, depth, fmt),
                  CompactPairs(rest, fmt));
    }
  }

  /** One step of a compact list: the lead-in is empty, the item is written
      compactly, and the separator is there exactly when more follow. */
  lemma {:induction false} CompactStep(lead: string, key: string, item: string, compact: string, sep: string,
                                       more: string, parts: seq<string>)
    requires lead == "" && item == compact
    requires more == Join(", ", parts)
    requires sep == Separator(0, |parts| != 0)
    ensures lead + key + item + sep + more
            == if |parts| == 0 then key + compact else key + compact + ", " + Join(", ", parts)
  {
  }

  /** The first-line flag only suppresses the value's own indentation. */
  lemma DumpLead(v: Json, width: nat, depth: nat, fmt: FloatFormat)
    ensures Dump(v, width, depth, false, fmt) == Indent(width, depth) + Dump(v, width, depth, true, fmt)
  {
    var body := Dump(v, width, depth, true, fmt);
    assert body == "" + body[0..];
  }

  /** Indented mode writes the indented layout; without the first-line flag
      the value's own indentation, `width * depth` spaces, comes first. */
  lemma PrettyLayout(v: Json, width: nat, depth: nat, fmt: FloatFormat)
    requires width > 0
    ensures Dump(v, width, depth, true, fmt) == Pretty(v, width, depth, fmt)
    ensures Dump(v, width, depth, false, fmt) == Spaces(width * depth) + Pretty(v, width, depth, fmt)
  {
    PrettyInline(v, width, depth, fmt);
    DumpLead(v, width, depth, fmt);
    IndentIsSpaces(width, depth);
  }

  lemma {:induction false} PrettyInline(v: Json, width: nat, depth: nat, fmt: FloatFormat)
    requires width > 0
    ensures Dump(v, width, depth, true, fmt) == Pretty(v, width, depth, fmt)
    decreases v, 2
  {
    match v {
      case JArray(es) => PrettyArray(es, width, depth, fmt);
      case JObject(es) => PrettyObject(es, width, depth, fmt);
      case _ =>
    }
  }

  lemma {:induction false} PrettyArray(es: seq<Json>, width: nat, depth: nat, fmt: FloatFormat)
    requires width > 0
    ensures Dump(JArray(es), width, depth, true, fmt) == Pretty(JArray(es), width, depth, fmt)
    decreases es, 1
  {
    IndentIsSpaces(width, depth);
    assert Closing(width, depth) == "\n" + Spaces(width * depth);
    PrettyElems(es, width, depth + 1, fmt);
    assert Dump(JArray(es), width, depth, true, fmt)
           == "" + ("[" + DumpElems(es, width, depth + 1, fmt) + Closing(width, depth) + "]");
  }

  lemma {:induction false} PrettyObject(es: seq<Entry<Json>>, width: nat, depth: nat, fmt: FloatFormat)
    requires width > 0
    ensures Dump(JObject(es), width, depth, true, fmt) == Pretty(JObject(es), width, depth, fmt)
    decreases es, 1
  {
    IndentIsSpaces(width, depth);
    assert Closing(width, depth) == "\n" + Spaces(width * depth);
    PrettyEntries(es, width, depth + 1, fmt);
    assert Dump(JObject(es), width, depth, true, fmt)
           == "" + ("{" + DumpEntries(es, width, depth + 1, fmt) + Closing(width, depth) + "}");
  }

  lemma {:induction false} PrettyElems(es: seq<Json>, width: nat, depth: nat, fmt: FloatFormat)
    requires width > 0
    ensures DumpElems(es, width, depth, fmt) == Join(",", PrettyItems(es, width, depth, fmt))
    decreases es, 0
  {
    if |es| != 0 {
      PrettyInline(es[0], width, depth, fmt);
      DumpLead(es[0], width, depth, fmt);
      IndentIsSpaces(width, depth);
      PrettyElems(es[1..], width, depth, fmt);
      assert DumpElems(es, width, depth, fmt)
             == "\n" + (Spaces(width * depth) + Pretty(es[0], width, depth, fmt))
                + Separator(width, |es| > 1) + DumpElems(es[1..], width, depth, fmt);
    }
  }

  lemma {:induction false} PrettyEntries(es: seq<Entry<Json>>, width: nat, depth: nat, fmt: FloatFormat)
    requires width > 0
    ensures DumpEntries(es, width, depth, fmt) == Join(",", PrettyPairs(es, width, depth, fmt))
    decreases es, 0
  {
    if |es| != 0 {
      IndentIsSpaces(width, depth);
      PrettyInline(es[0].val, width, depth, fmt);
      PrettyEntries(es[1..], width, depth, fmt);
    }
  }

  // ---------------------------------------------------------------- no line breaks in compact mode

  lemma {:induction false} JoinWithout(c: char, sep: string, parts: seq<string>)
    requires c !in sep && forall i :: 0 <= i < |parts| ==> c !in parts[i]
    ensures c !in Join(sep, parts)
  {
    if |parts| > 1 {
      JoinWithout(c, sep, parts[1..]);
    }
  }

  lemma {:induction false} CompactWithoutNewline(v: Json, fmt: FloatFormat)
    requires forall f :: '\n' !in fmt(f)
    requires ValidKeys(v)
    ensures '\n' !in Compact(v, fmt)
    decreases v, 1
  {
    match v {
      case JArray(es) =>
        ItemsWithoutNewline(es, fmt);
        JoinWithout('\n', ", ", CompactItems(es, fmt));
      case JObject(es) =>
        PairsWithoutNewline(es, fmt);
        JoinWithout('\n', ", ", CompactPairs(es, fmt));
      case _ =>
    }
  }

  lemma {:induction false} ItemsWithoutNewline(es: seq<Json>, fmt: FloatFormat)
    requires forall f :: '\n' !in fmt(f)
    requires forall e | e in es :: ValidKeys(e)
    ensures forall i :: 0 <= i < |es| ==> '\n' !in CompactItems(es, fmt)[i]
    decreases es, 0
  {
    if |es| != 0 {
      CompactWithoutNewline(es[0], fmt);
      ItemsWithoutNewline(es[1..], fmt);
    }
  }

  lemma {:induction false} PairsWithoutNewline(es: seq<Entry<Json>>, fmt: FloatFormat)
    requires forall f :: '\n' !in fmt(f)
    requires forall e | e in es :: ValidKey(e.key) && ValidKeys(e.val)
    ensures forall i :: 0 <= i < |es| ==> '\n' !in CompactPairs(es, fmt)[i]
    decreases es, 0
  {
    if |es| != 0 {
      CompactWithoutNewline(es[0].val, fmt);
      PairsWithoutNewline(es[1..], fmt);
      assert ValidKey(es[0].key) by {
        assert es[0] in es;
      }
    }
  }

  /** Compact output holds no line break, provided the float rendering
      writes none and every key passes the Object constructor's check (keys
      are written unescaped). */
  lemma CompactDumpSingleLine(v: Json, depth: nat, firstLine: bool, fmt: FloatFormat)
    requires forall f :: '\n' !in fmt(f)
    requires ValidKeys(v)
    ensures '\n' !in Dump(v, 0, depth, firstLine, fmt)
  {
    CompactLayout(v, depth, firstLine, fmt);
    CompactWithoutNewline(v, fmt);
  }
}

=== FILE: ordered_maps.dfy ===
/** `std::map<std::string, V>`: an association list kept strictly sorted by
    `std::string`'s `operator<`. */
module OrderedMaps {
  import opened Outcomes

  datatype Entry<V> = Entry(key: string, val: V)

  /** `std::string` ordering: lexicographic on characters, a proper prefix
      coming first. */
  predicate KeyLess(a: string, b: string)
    decreases |a|
  {
    if |a| == 0 then |b| != 0
    else if |b| == 0 then false
    else a[0] < b[0] || (a[0] == b[0] && KeyLess(a[1..], b[1..]))
  }

  lemma {:induction false} KeyLessIrreflexive(a: string)
    ensures !KeyLess(a, a)
    decreases |a|
  {
    if |a| != 0 {
      KeyLessIrreflexive(a[1..]);
    }
  }

  lemma {:induction false} KeyLessTransitive(a: string, b: string, c: string)
    requires KeyLess(a, b) && KeyLess(b, c)
    ensures KeyLess(a, c)
    decreases |a|
  {
    if |a| != 0 && a[0] == b[0] && b[0] == c[0] {
      KeyLessTransitive(a[1..], b[1..], c[1..]);
    }
  }

  lemma {:induction false} KeyLessTotal(a: string, b: string)
    ensures a == b || KeyLess(a, b) || KeyLess(b, a)
    decreases |a|
  {
    if |a| != 0 && |b| != 0 && a[0] == b[0] {
      KeyLessTotal(a[1..], b[1..]);
      if a[1..] == b[1..] {
        assert a == [a[0]] + a[1..] && b == [b[0]] + b[1..];
      }
    }
  }

  /** The `std::map` invariant: keys strictly ascending, hence unique. */
  predicate Sorted<V>(es: seq<Entry<V>>) {
    forall i, j :: 0 <= i < j < |es| ==> KeyLess(es[i].key, es[j].key)
  }

  function KeysOf<V>(es: seq<Entry<V>>): set<string>
  {
    if |es| == 0 then {} else {es[0].key} + KeysOf(es[1..])
  }

  lemma {:induction false} KeysOfIndex<V>(es: seq<Entry<V>>, k: string)
    ensures k in KeysOf(es) <==> exists i :: 0 <= i < |es| && es[i].key == k
  {
    if |es| != 0 {
      KeysOfIndex(es[1..], k);
      if k in KeysOf(es[1..]) {
        var i :| 0 <= i < |es[1..]| && es[1..][i].key == k;
        assert es[i + 1].key == k;
      }
      if exists i :: 0 <= i < |es| && es[i].key == k {
        var i :| 0 <= i < |es| && es[i].key == k;
        if i != 0 {
          assert es[1..][i - 1].key == k;
        }
      }
    }
  }

  /** The map lookup inside `operator[](key)`: the value stored under `k`,
      if any. */
  function Lookup<V>(es: seq<Entry<V>>, k: string): (r: Option<V>)
    ensures r.None? <==> k !in KeysOf(es)
  {
    if |es| == 0 then None
    else if es[0].key == k then Some(es[0].val)
    else Lookup(es[1..], k)
  }

  /** In a sorted list the entry holding a key is the one `Lookup` finds. */
  lemma {:induction false} LookupSorted<V>(es: seq<Entry<V>>, i: nat)
    requires Sorted(es) && i < |es|
    ensures Lookup(es, es[i].key) == Some(es[i].val)
  {
    if i != 0 {
      assert KeyLess(es[0].key, es[i].key);
      if es[0].key == es[i].key {
        KeyLessIrreflexive(es[0].key);
      }
      assert es[1..][i - 1] == es[i];
      LookupSorted(es[1..], i - 1);
    }
  }

  lemma SortedTail<V>(es: seq<Entry<V>>)
    requires Sorted(es) && |es| != 0
    ensures Sorted(es[1..])
  {
    forall i, j | 0 <= i < j < |es[1..]|
      ensures KeyLess(es[1..][i].key, es[1..][j].key)
    {
      assert es[1..][i] == es[i + 1] && es[1..][j] == es[j + 1];
    }
  }

  /** Putting a key smaller than the head of a sorted list in front keeps it sorted. */
  lemma SortedPrepend<V>(x: Entry<V>, es: seq<Entry<V>>)
    requires Sorted(es)
    requires |es| != 0 ==> KeyLess(x.key, es[0].key)
    ensures Sorted([x] + es)
  {
    var r := [x] + es;
    forall i, j | 0 <= i < j < |r|
      ensures KeyLess(r[i].key, r[j].key)
    {
      if i == 0 && j > 1 {
        KeyLessTransitive(x.key, es[0].key, es[j - 1].key);
      }
    }
  }

  /** `m[k] = v`: overwrite the entry for `k`, or insert it at its place. */
  function Put<V>(es: seq<Entry<V>>, k: string, v: V): (r: seq<Entry<V>>)
    requires Sorted(es)
    ensures Sorted(r)
    ensures KeysOf(r) == KeysOf(es) + {k}
    ensures Lookup(r, k) == Some(v)
    ensures forall k' :: k' != k ==> Lookup(r, k') == Lookup(es, k')
    ensures forall e :: e in r ==> e in es || e == Entry(k, v)
    decreases |es|, 1
  {
    if |es| == 0 then
      [Entry(k, v)]
    else if es[0].key == k then
      var r := [Entry(k, v)] + es[1..];
      assert forall i :: 0 <= i < |r| ==> r[i].key == es[i].key;
      assert es == [es[0]] + es[1..];
      r
    else if KeyLess(k, es[0].key) then
      SortedPrepend(Entry(k, v), es);
      [Entry(k, v)] + es
    else
      KeyLessTotal(k, es[0].key);
      SortedTail(es);
      PutBehind(es, k, v);
      [es[0]] + Put(es[1..], k, v)
  }

  /** The last case of `Put`: a key past the head is put into the rest, and
      the head stays in front. */
  lemma {:induction false} PutBehind<V>(es: seq<Entry<V>>, k: string, v: V)
    requires |es| != 0 && Sorted(es) && Sorted(es[1..]) && KeyLess(es[0].key, k)
    ensures Sorted([es[0]] + Put(es[1..], k, v))
    ensures KeysOf([es[0]] + Put(es[1..], k, v)) == KeysOf(es) + {k}
    ensures Lookup([es[0]] + Put(es[1..], k, v), k) == Some(v)
    ensures forall k' :: k' != k ==> Lookup([es[0]] + Put(es[1..], k, v), k') == Lookup(es, k')
    ensures forall e :: e in [es[0]] + Put(es[1..], k, v) ==> e in es || e == Entry(k, v)
    decreases |es|, 0
  {
    var rest := Put(es[1..], k, v);
    var r := [es[0]] + rest;
    assert r[0] == es[0] && r[1..] == rest;
    assert KeyLess(es[0].key, rest[0].key) by {
      assert rest[0].key in KeysOf(rest);
      KeysOfIndex(es[1..], rest[0].key);
      if rest[0].key != k {
        var i :| 0 <= i < |es[1..]| && es[1..][i].key == rest[0].key;
        assert es[i + 1].key == rest[0].key;
      }
    }
    SortedPrepend(es[0], rest);
    KeyLessIrreflexive(k);
    assert es[0].key != k;
    assert es == [es[0]] + es[1..];
  }

  /** Assigning twice to the same key keeps only the second value: last write wins. */
  lemma {:induction false} PutOverwrite<V>(es: seq<Entry<V>>, k: string, v1: V, v2: V)
    requires Sorted(es)
    ensures Put(Put(es, k, v1), k, v2) == Put(es, k, v2)
  {
    if |es| != 0 && es[0].key != k && !KeyLess(k, es[0].key) {
      var once := Put(es, k, v1);
      SortedTail(es);
      assert once == [es[0]] + Put(es[1..], k, v1);
      assert once[0] == es[0] && once[1..] == Put(es[1..], k, v1);
      PutOverwrite(es[1..], k, v1, v2);
    }
  }

  /** A key greater than every key present is appended at the end. */
  lemma {:induction false} PutAppend<V>(es: seq<Entry<V>>, k: string, v: V)
    requires Sorted(es)
    requires forall i :: 0 <= i < |es| ==> KeyLess(es[i].key, k)
    ensures Put(es, k, v) == es + [Entry(k, v)]
  {
    if |es| != 0 {
      KeyLessIrreflexive(k);
      if KeyLess(k, es[0].key) {
        KeyLessTransitive(k, es[0].key, k);
      }
      assert es[0].key != k && !KeyLess(k, es[0].key);
      var tail := es[1..];
      SortedTail(es);
      assert forall i :: 0 <= i < |tail| ==> tail[i] == es[i + 1];
      PutAppend(tail, k, v);
      assert Put(es, k, v) == [es[0]] + Put(tail, k, v);
      assert [es[0]] + (tail + [Entry(k, v)]) == es + [Entry(k, v)];
    }
  }
}

=== FILE: outcomes.dfy ===
/** Outcomes of the modelled operations.

    Every operation of the header either returns a value, throws a
    `std::runtime_error`, or (on a few paths) has undefined behaviour in C++:
    an unchecked `std::vector` index out of range, or a read past the
    terminating NUL of the input text.  The three cases are kept apart. */
module Outcomes {

  /** The exceptions the header throws, one per distinct message. */
  datatype Error =
    | BadObjectKey    // "Bad JSON object key: <key>", from the Object constructor
    | BadArrayAccess  // "Bad JSON array access", operator[](size_t) on a non-array
    | BadMapAccess    // "Bad JSON map access", operator[](string) on a non-Object
    | BadAccess       // "Bad JSON access", get<T>() on another alternative
    | BadJson         // "Bad JSON: got <c>", the parser met a character no value starts with
    | EndOfStream     // "End of stream before JSON was completed"

  /** A returned value, a thrown error, or undefined behaviour. */
  datatype Result<+T> = Ok(value: T) | Fail(error: Error) | Undefined {

    predicate IsFailure() {
      !Ok?
    }

    function PropagateFailure<U>(): Result<U>
      requires !Ok?
    {
      if Fail? then Fail(error) else Undefined
    }

    function Extract(): T
      requires Ok?
    {
      value
    }
  }

  datatype Option<+T> = None | Some(value: T)
}

=== FILE: parser.dfy ===
/** The parser: `load` and the recursive-descent `_load` over a character
    cursor (JSON.h lines 126-131 and 200-314), modelled as written.

    The input is the text `s` followed by its terminating NUL: reading index
    `|s|` yields `'\0'` and reading any index past it is undefined behaviour,
    which the model reports as `Undefined`. */
module Parser {
  import opened Outcomes
  import opened Chars
  import opened OrderedMaps
  import opened Values

  /** `*c` with the cursor at `i`. */
  function Peek(s: string, i: nat): char
    requires i <= |s|
  {
    if i < |s| then s[i] else '\0'
  }

  /** The three kinds of character run the parser advances over: the
      whitespace of `skip_whitespace`, the characters of a number literal,
      and the characters of an Object key. */
  datatype Run = Whitespace | NumberChars | KeyChars

  predicate InRun(run: Run, c: char) {
    match run
    case Whitespace => IsSpace(c)
    case NumberChars => IsNumChar(c)
    case KeyChars => IsKeyChar(c)
  }

  /** Advance over the longest run of characters of the given kind; the
      terminating NUL is never part of a run. */
  function RunEnd(s: string, i: nat, run: Run): (j: nat)
    requires i <= |s|
    ensures i <= j <= |s|
    ensures !InRun(run, Peek(s, j))
    decreases |s| - i
  {
    if InRun(run, Peek(s, i)) then RunEnd(s, i + 1, run) else i
  }

  /** Every character a run advances over is of its kind. */
  lemma {:induction false} RunEndSpan(s: string, i: nat, run: Run)
    requires i <= |s|
    ensures forall k :: i <= k < RunEnd(s, i, run) ==> InRun(run, s[k])
    decreases |s| - i
  {
    if InRun(run, Peek(s, i)) {
      RunEndSpan(s, i + 1, run);
    }
  }

  /** The `skip_whitespace` lambda. */
  function SkipWs(s: string, i: nat): (j: nat)
    requires i <= |s|
    ensures i <= j <= |s|
    ensures !IsSpace(Peek(s, j))
  {
    RunEnd(s, i, Whitespace)
  }

  /** `skip_whitespace` advances over whitespace only. */
  lemma SkipWsSpan(s: string, i: nat)
    requires i <= |s|
    ensures forall k :: i <= k < SkipWs(s, i) ==> IsSpace(s[k])
  {
    RunEndSpan(s, i, Whitespace);
  }

  /** The `expect` lambda.  It reads `*c` and advances; on a mismatch it
      builds an error message that reads the next character, and then drops
      the error without throwing it.  So it always advances by one, and it
      is undefined only when the mismatch is the terminating NUL itself. */
  function Expect(s: string, i: nat, e: char): (r: Result<nat>)
    requires i <= |s| && e != '\0'
    ensures !r.Fail?
    ensures r.Ok? <==> i < |s|
    ensures r.Ok? ==> r.value == i + 1
  {
    if Peek(s, i) == e then Ok(i + 1)
    else if i + 1 <= |s| then Ok(i + 1)
    else Undefined
  }

  /** A run of `expect` calls, one per character of `rest`. */
  function ExpectAll(s: string, i: nat, rest: string): (r: Result<nat>)
    requires i <= |s| && '\0' !in rest
    ensures !r.Fail?
    ensures r.Ok? <==> i + |rest| <= |s|
    ensures r.Ok? ==> r.value == i + |rest|
    decreases |rest|
  {
    if |rest| == 0 then Ok(i)
    else
      var j :- Expect(s, i, rest[0]);
      ExpectAll(s, j, rest[1..])
  }

  /** The decoded text of a string literal and the cursor after it. */
  datatype Lexed = Lexed(text: string, next: nat)

  function Prepend(c: char, l: Lexed): Lexed
  {
    Lexed([c] + l.text, l.next)
  }

  /** The string loop of `_load`, from just after the opening quote.  It
      stops at a `"` or a NUL and consumes neither.  After a backslash: `t`,
      `n` and `r` emit the letter and leave the cursor on it, so the letter is
      emitted a second time; `"` and `'` emit themselves; a second backslash
      emits one backslash; anything else emits the backslash alone. */
  function LexString(s: string, i: nat): (r: Lexed)
    requires i <= |s|
    ensures i <= r.next <= |s|
    ensures Peek(s, r.next) == '"' || Peek(s, r.next) == '\0'
    ensures forall j :: i <= j < r.next ==> s[j] != '\0'
    decreases |s| - i
  {
    var c := Peek(s, i);
    if c == '\0' || c == '"' then Lexed("", i)
    else if c == '\\' then
      var n := Peek(s, i + 1);
      if n == 't' || n == 'n' || n == 'r' then Prepend(n, LexString(s, i + 1))
      else if n == '"' || n == '\'' then Prepend(n, LexString(s, i + 2))
      else if n == '\\' then Prepend('\\', LexString(s, i + 2))
      else Prepend('\\', LexString(s, i + 1))
    else Prepend(c, LexString(s, i + 1))
  }

  /** A parsed value and the cursor after it. */
  datatype Parsed = Parsed(val: Json, next: nat)

  /** `true`, `false`, `null`: after the first letter, one `expect` per
      remaining letter, whatever the characters are. */
  function Literal(s: string, i: nat, rest: string, v: Json): (r: Result<Parsed>)
    requires i <= |s| && '\0' !in rest
    ensures !r.Fail?
    ensures r.Ok? <==> i + |rest| <= |s|
    ensures r.Ok? ==> r.value == Parsed(v, i + |rest|)
  {
    var j :- ExpectAll(s, i, rest);
    Ok(Parsed(v, j))
  }

  /** `_load`: skip whitespace, then dispatch on the next character. */
  function Parse(s: string, i: nat): (r: Result<Parsed>)
    requires i <= |s|
    ensures r.Ok? ==> i < r.value.next <= |s|
    decreases |s| - i, 0
  {
    var k := SkipWs(s, i);
    var c := Peek(s, k);
    if c == '\0' then Fail(EndOfStream)
    else if c == 't' then Literal(s, k + 1, "rue", JBool(true))
    else if c == 'f' then Literal(s, k + 1, "alse", JBool(false))
    else if c == 'n' then Literal(s, k + 1, "ull", JNull)
    else if c == '"' then
      var l := LexString(s, k + 1);
      Ok(Parsed(JString(l.text), l.next))
    else if c == '[' then ParseArray(s, k + 1)
    else if c == '{' then ParseObject(s, k + 1)
    else if IsNumChar(c) then Ok(Parsed(JInt(0), RunEnd(s, k, NumberChars)))
    else Fail(BadJson)
  }

  /** The `[` case, from just after the bracket. */
  function ParseArray(s: string, i: nat): (r: Result<Parsed>)
    requires i <= |s|
    ensures r.Ok? ==> i < r.value.next <= |s|
    decreases |s| - i, 2
  {
    var j := SkipWs(s, i);
    if Peek(s, j) == ']' then Ok(Parsed(JArray([]), j + 1))
    else ParseElems(s, j, [])
  }

  /** The element loop of the `[` case; `acc` holds the elements so far. */
  function ParseElems(s: string, i: nat, acc: seq<Json>): (r: Result<Parsed>)
    requires i <= |s|
    ensures r.Ok? ==> i < r.value.next <= |s|
    decreases |s| - i, 1
  {
    var k := SkipWs(s, i);
    var e :- Parse(s, k);
    NextElem(s, SkipWs(s, e.next), acc + [e.val])
  }

  /** The rest of the element loop once an element is appended: another
      element after a comma, otherwise `expect(']')` and the array. */
  function NextElem(s: string, j: nat, acc: seq<Json>): (r: Result<Parsed>)
    requires j <= |s|
    ensures r.Ok? ==> j < r.value.next <= |s|
    decreases |s| - j, 2
  {
    if Peek(s, j) != ',' then
      var n :- Expect(s, j, ']');
      Ok(Parsed(JArray(acc), n))
    else
      ParseElems(s, j + 1, acc)
  }

  /** The `{` case, from just after the brace.  `{}` yields `JSON()`. */
  function ParseObject(s: string, i: nat): (r: Result<Parsed>)
    requires i <= |s|
    ensures r.Ok? ==> i < r.value.next <= |s|
    decreases |s| - i, 3
  {
    var j := SkipWs(s, i);
    if Peek(s, j) == '}' then Ok(Parsed(Default(), j + 1))
    else ParseEntries(s, j, [])
  }

  /** One `"key": value` member and the cursor after it. */
  datatype Member = Member(key: string, val: Json, next: nat)

  /** The body of the entry loop up to the value.  The key is the run of
      alphanumeric and `_` characters after the first `expect('"')`. */
  function ParseMember(s: string, i: nat): (r: Result<Member>)
    requires i <= |s|
    ensures r.Ok? ==> i < r.value.next <= |s| && ValidKey(r.value.key)
    decreases |s| - i, 1
  {
    var k := SkipWs(s, i);
    var a :- Expect(s, k, '"');
    var b := RunEnd(s, a, KeyChars);
    RunEndSpan(s, a, KeyChars);
    var c :- Expect(s, b, '"');
    var d :- Expect(s, SkipWs(s, c), ':');
    var e :- Parse(s, SkipWs(s, d));
    Ok(Member(s[a..b], e.val, e.next))
  }

  /** The entry loop of the `{` case; `obj` holds the map built so far.  A
      repeated key overwrites the earlier entry.  The finished map goes
      through the checking Object constructor. */
  function ParseEntries(s: string, i: nat, obj: seq<Entry<Json>>): (r: Result<Parsed>)
    requires i <= |s| && Sorted(obj)
    ensures r.Ok? ==> i < r.value.next <= |s|
    decreases |s| - i, 2
  {
    var m :- ParseMember(s, i);
    NextEntry(s, SkipWs(s, m.next), Put(obj, m.key, m.val))
  }

  /** The rest of the entry loop once a member is stored: another member
      after a comma, otherwise the end of the Object. */
  function NextEntry(s: string, j: nat, obj: seq<Entry<Json>>): (r: Result<Parsed>)
    requires j <= |s| && Sorted(obj)
    ensures r.Ok? ==> j < r.value.next <= |s|
    decreases |s| - j, 3
  {
    if Peek(s, j) != ',' then CloseObject(s, j, obj)
    else ParseEntries(s, j + 1, obj)
  }

  /** The end of the `{` case: `expect('}')`, then `return obj` through the
      checking Object constructor. */
  function CloseObject(s: string, j: nat, obj: seq<Entry<Json>>): (r: Result<Parsed>)
    requires j <= |s| && Sorted(obj)
    ensures r.Ok? ==> j < r.value.next <= |s|
  {
    var n :- Expect(s, j, '}');
    var o :- FromObject(obj);
    Ok(Parsed(o, n))
  }

  /** `JSON::load`: parse one value from the start; anything after it is
      ignored. */
  function Load(s: string): Result<Json>
  {
    var p :- Parse(s, 0);
    Ok(p.val)
  }
}

=== FILE: parser_facts.dfy ===
/** What `load` does with each kind of input, and what it guarantees about
    the trees it builds. */
module ParserFacts {
  import opened Outcomes
  import opened Chars
  import opened OrderedMaps
  import opened Values
  import opened Parser

  /** Text that is empty or whitespace only, or whose first non-space
      character is a NUL, throws "End of stream". */
  lemma LoadEndOfStream(s: string)
    requires Peek(s, SkipWs(s, 0)) == '\0' || forall i :: 0 <= i < |s| ==> IsSpace(s[i])
    ensures Load(s) == Fail(EndOfStream)
  {
  }

  /** A first character that starts no literal, string, array, Object or
      number throws "Bad JSON". */
  lemma ParseBadStart(s: string, i: nat)
    requires i <= |s|
    requires var c := Peek(s, SkipWs(s, i));
             c !in {'\0', 't', 'f', 'n', '"', '[', '{'} && !IsNumChar(c)
    ensures Parse(s, i) == Fail(BadJson)
  {
  }

  /** `t`, `f` and `n` are followed by 3, 4 and 3 `expect`s that never
      throw: whatever those characters are the literal is produced and
      exactly 4, 5 or 4 characters are consumed; if the text ends first, the
      error message reads past the NUL. */
  lemma ParseLiterals(s: string, i: nat)
    requires i <= |s|
    ensures var k := SkipWs(s, i);
            var c := Peek(s, k);
            && (c == 't' ==> Parse(s, i) == if k + 4 <= |s| then Ok(Parsed(JBool(true), k + 4)) else Undefined)
            && (c == 'f' ==> Parse(s, i) == if k + 5 <= |s| then Ok(Parsed(JBool(false), k + 5)) else Undefined)
            && (c == 'n' ==> Parse(s, i) == if k + 4 <= |s| then Ok(Parsed(JNull, k + 4)) else Undefined)
  {
  }

  /** A number literal is the longest run of digits, `+`, `-` and `.`
      starting at the first non-space character, and always yields
      `Int 0`. */
  lemma ParseNumber(s: string, i: nat)
    requires i <= |s| && IsNumChar(Peek(s, SkipWs(s, i)))
    ensures var k := SkipWs(s, i);
            var r := Parse(s, i);
            && r.Ok? && r.value.val == JInt(0) && k < r.value.next
            && (forall j :: k <= j < r.value.next ==> IsNumChar(s[j]))
            && !IsNumChar(Peek(s, r.value.next))
  {
    RunEndSpan(s, SkipWs(s, i), NumberChars);
  }

  /** A string literal never fails.  The cursor is left past the opening
      quote on the closing quote, or on the NUL of unterminated text, not
      after it; the loop never passes a NUL on the way. */
  lemma ParseStringStops(s: string, i: nat)
    requires i <= |s| && Peek(s, SkipWs(s, i)) == '"'
    ensures var k := SkipWs(s, i);
            var r := Parse(s, i);
            && r.Ok? && r.value.val.JString? && k < r.value.next
            && (Peek(s, r.value.next) == '"' || Peek(s, r.value.next) == '\0')
            && forall j :: k < j < r.value.next ==> s[j] != '\0'
  {
  }

  // ---------------------------------------------------------------- parsed trees

  /** A parse outcome that is not the Object constructor's error, and whose
      tree, if any, is well formed with valid keys. */
  predicate Valid(r: Result<Parsed>) {
    r != Fail(BadObjectKey) && (r.Ok? ==> WellFormed(r.value.val) && ValidKeys(r.value.val))
  }

  /** The same for one parsed Object member. */
  predicate ValidMember(r: Result<Member>) {
    r != Fail(BadObjectKey) && (r.Ok? ==> WellFormed(r.value.val) && ValidKeys(r.value.val))
  }

  /** The trees `load` builds satisfy the `std::map` invariant and all their
      keys pass the Object constructor's check, so that check never throws
      inside the parser. */
  lemma {:induction false} ParseValid(s: string, i: nat)
    requires i <= |s|
    ensures Valid(Parse(s, i))
    decreases |s| - i, 0
  {
    var k := SkipWs(s, i);
    var c := Peek(s, k);
    if c == '[' {
      ArrayValid(s, k + 1);
    } else if c == '{' {
      ObjectValid(s, k + 1);
    }
  }

  lemma {:induction false} ArrayValid(s: string, i: nat)
    requires i <= |s|
    ensures Valid(ParseArray(s, i))
    decreases |s| - i, 2
  {
    var j := SkipWs(s, i);
    if Peek(s, j) != ']' {
      ElemsValid(s, j, []);
    }
  }

  lemma {:induction false} ElemsValid(s: string, i: nat, acc: seq<Json>)
    requires i <= |s|
    requires forall e | e in acc :: WellFormed(e) && ValidKeys(e)
    ensures Valid(ParseElems(s, i, acc))
    decreases |s| - i, 1
  {
    var k := SkipWs(s, i);
    ParseValid(s, k);
    var r := Parse(s, k);
    if r.Ok? {
      var z, q := r.value.val, r.value.next;
      var j := SkipWs(s, q);
      ElemsStep(s, i, k, acc, z, q, j);
      var updated := acc + [z];
      assert forall e | e in updated :: e in acc || e == z;
      NextValid(s, j, updated);
    }
  }

  lemma {:induction false} NextValid(s: string, j: nat, acc: seq<Json>)
    requires j <= |s|
    requires forall e | e in acc :: WellFormed(e) && ValidKeys(e)
    ensures Valid(NextElem(s, j, acc))
    decreases |s| - j, 2
  {
    if Peek(s, j) == ',' {
      ElemsValid(s, j + 1, acc);
    }
  }

  lemma {:induction false} ObjectValid(s: string, i: nat)
    requires i <= |s|
    ensures Valid(ParseObject(s, i))
    decreases |s| - i, 3
  {
    var j := SkipWs(s, i);
    if Peek(s, j) != '}' {
      EntriesValid(s, j, []);
    }
  }

  lemma {:induction false} MemberValid(s: string, i: nat)
    requires i <= |s|
    ensures ValidMember(ParseMember(s, i))
    decreases |s| - i, 1
  {
    var k := SkipWs(s, i);
    if k < |s| {
      var b := RunEnd(s, k + 1, KeyChars);
      if b < |s| {
        var d := SkipWs(s, b + 1);
        if d < |s| {
          ParseValid(s, SkipWs(s, d + 1));
        }
      }
    }
  }

  /** Every entry has a valid key and a valid value. */
  predicate EntriesOk(obj: seq<Entry<Json>>) {
    forall e | e in obj :: ValidKey(e.key) && WellFormed(e.val) && ValidKeys(e.val)
  }

  lemma PutEntriesOk(obj: seq<Entry<Json>>, key: string, v: Json)
    requires Sorted(obj) && EntriesOk(obj)
    requires ValidKey(key) && WellFormed(v) && ValidKeys(v)
    ensures EntriesOk(Put(obj, key, v))
  {
  }

  /** Closing a map of valid entries yields that map as an Object. */
  lemma CloseValid(s: string, j: nat, obj: seq<Entry<Json>>)
    requires j <= |s| && Sorted(obj) && EntriesOk(obj)
    ensures Valid(CloseObject(s, j, obj))
    ensures CloseObject(s, j, obj).Ok? ==> CloseObject(s, j, obj).value.val == JObject(obj)
  {
  }

  lemma {:induction false} EntriesValid(s: string, i: nat, obj: seq<Entry<Json>>)
    requires i <= |s| && Sorted(obj) && EntriesOk(obj)
    ensures Valid(ParseEntries(s, i, obj))
    decreases |s| - i, 2
  {
    MemberValid(s, i);
    var m := ParseMember(s, i);
    if m.Ok? {
      var key, v, q := m.value.key, m.value.val, m.value.next;
      var j := SkipWs(s, q);
      EntriesStep(s, i, obj, key, v, q, j);
      PutEntriesOk(obj, key, v);
      NextEntryValid(s, j, Put(obj, key, v));
    }
  }

  lemma {:induction false} NextEntryValid(s: string, j: nat, obj: seq<Entry<Json>>)
    requires j <= |s| && Sorted(obj) && EntriesOk(obj)
    ensures Valid(NextEntry(s, j, obj))
    decreases |s| - j, 3
  {
    if Peek(s, j) == ',' {
      EntriesValid(s, j + 1, obj);
    } else {
      CloseValid(s, j, obj);
    }
  }

  // ---------------------------------------------------------------- single steps

  /** A `{` after the whitespace starts an Object. */
  lemma ParseOpensObject(s: string, i: nat)
    requires i <= |s| && Peek(s, SkipWs(s, i)) == '{'
    ensures Parse(s, i) == ParseObject(s, SkipWs(s, i) + 1)
  {
  }

  /** A `[` after the whitespace starts an array. */
  lemma ParseOpensArray(s: string, i: nat)
    requires i <= |s| && Peek(s, SkipWs(s, i)) == '['
    ensures Parse(s, i) == ParseArray(s, SkipWs(s, i) + 1)
  {
  }

  /** An Object that does not close at once starts the entry loop. */
  lemma ObjectOpens(s: string, i: nat)
    requires i <= |s| && Peek(s, SkipWs(s, i)) != '}'
    ensures ParseObject(s, i) == ParseEntries(s, SkipWs(s, i), [])
  {
  }

  /** An array that does not close at once starts the element loop. */
  lemma ArrayOpens(s: string, i: nat)
    requires i <= |s| && Peek(s, SkipWs(s, i)) != ']'
    ensures ParseArray(s, i) == ParseElems(s, SkipWs(s, i), [])
  {
  }

  /** `load` is the parse from the start of the text, keeping only the
      value. */
  lemma LoadOfParse(s: string, r: Result<Parsed>)
    requires Parse(s, 0) == r
    ensures r.Ok? ==> Load(s) == Ok(r.value.val)
    ensures r.Fail? ==> Load(s) == Fail(r.error)
    ensures r.Undefined? ==> Load(s) == Undefined
  {
  }

  /** Text that starts with `{` loads as the Object read after it. */
  lemma LoadObject(s: string, v: Json, n: nat)
    requires 0 < |s| && s[0] == '{' && ParseObject(s, 1) == Ok(Parsed(v, n))
    ensures Load(s) == Ok(v)
  {
    assert SkipWs(s, 0) == 0;
    ParseOpensObject(s, 0);
    LoadOfParse(s, Ok(Parsed(v, n)));
  }

  /** Text that starts with `[` loads as the array read after it. */
  lemma LoadArray(s: string, v: Json, n: nat)
    requires 0 < |s| && s[0] == '[' && ParseArray(s, 1) == Ok(Parsed(v, n))
    ensures Load(s) == Ok(v)
  {
    assert SkipWs(s, 0) == 0;
    ParseOpensArray(s, 0);
    LoadOfParse(s, Ok(Parsed(v, n)));
  }

  /** One element read: the loop appends it and looks at what follows at
      `j`. */
  lemma ElemsStep(s: string, i: nat, k: nat, acc: seq<Json>, z: Json, q: nat, j: nat)
    requires i <= |s| && SkipWs(s, i) == k && Parse(s, k) == Ok(Parsed(z, q))
    requires SkipWs(s, q) == j
    ensures ParseElems(s, i, acc) == NextElem(s, j, acc + [z])
  {
  }

  /** One element, read at `k` as `z` up to `q`, followed by a comma at
      `j`: the loop goes round after the comma with the element appended. */
  lemma ElemsContinue(s: string, i: nat, k: nat, acc: seq<Json>, z: Json, q: nat, j: nat)
    requires i <= |s| && SkipWs(s, i) == k && Parse(s, k) == Ok(Parsed(z, q))
    requires SkipWs(s, q) == j && Peek(s, j) == ','
    ensures ParseElems(s, i, acc) == ParseElems(s, j + 1, acc + [z])
  {
    ElemsStep(s, i, k, acc, z, q, j);
  }

  /** One element followed by anything else at `j`: `expect(']')` ends the
      array, whatever the character is. */
  lemma ElemsStop(s: string, i: nat, k: nat, acc: seq<Json>, z: Json, q: nat, j: nat)
    requires i <= |s| && SkipWs(s, i) == k && Parse(s, k) == Ok(Parsed(z, q))
    requires SkipWs(s, q) == j && j < |s| && Peek(s, j) != ','
    ensures ParseElems(s, i, acc) == Ok(Parsed(JArray(acc + [z]), j + 1))
  {
    ElemsStep(s, i, k, acc, z, q, j);
  }

  /** A member read step by step: the opening quote at `a`, the key up to
      `b`, the colon at `c` and the value at `v`, read as `z` up to `q`. */
  lemma MemberRead(s: string, i: nat, a: nat, b: nat, c: nat, v: nat, z: Json, q: nat)
    requires i <= |s| && SkipWs(s, i) == a && a < |s|
    requires RunEnd(s, a + 1, KeyChars) == b && b < |s|
    requires SkipWs(s, b + 1) == c && c < |s|
    requires SkipWs(s, c + 1) == v && Parse(s, v) == Ok(Parsed(z, q))
    ensures ParseMember(s, i) == Ok(Member(s[a + 1..b], z, q))
  {
    assert Expect(s, a, '"') == Ok(a + 1);
    assert Expect(s, b, '"') == Ok(b + 1);
    assert Expect(s, c, ':') == Ok(c + 1);
  }

  /** One member read: the loop stores it and looks at what follows at
      `j`. */
  lemma EntriesStep(s: string, i: nat, obj: seq<Entry<Json>>, key: string, z: Json, q: nat, j: nat)
    requires i <= |s| && Sorted(obj) && ParseMember(s, i) == Ok(Member(key, z, q))
    requires SkipWs(s, q) == j
    ensures ParseEntries(s, i, obj) == NextEntry(s, j, Put(obj, key, z))
  {
  }

  /** One member followed by a comma at `j`: the loop goes round after it
      with the member stored. */
  lemma EntriesContinue(s: string, i: nat, obj: seq<Entry<Json>>, key: string, z: Json, q: nat, j: nat)
    requires i <= |s| && Sorted(obj) && ParseMember(s, i) == Ok(Member(key, z, q))
    requires SkipWs(s, q) == j && Peek(s, j) == ','
    ensures ParseEntries(s, i, obj) == ParseEntries(s, j + 1, Put(obj, key, z))
  {
    EntriesStep(s, i, obj, key, z, q, j);
  }

  /** One member followed by anything else at `j`: the loop closes the
      Object. */
  lemma EntriesStop(s: string, i: nat, obj: seq<Entry<Json>>, key: string, z: Json, q: nat, j: nat)
    requires i <= |s| && Sorted(obj) && ParseMember(s, i) == Ok(Member(key, z, q))
    requires SkipWs(s, q) == j && Peek(s, j) != ','
    ensures ParseEntries(s, i, obj) == CloseObject(s, j, Put(obj, key, z))
  {
    EntriesStep(s, i, obj, key, z, q, j);
  }

  /** A character the string loop copies as it is. */
  predicate PlainChar(c: char) {
    c != '\0' && c != '"' && c != '\\'
  }

  /** Over characters it copies as they are, the string loop reads the text
      itself and stops on the quote or NUL that follows. */
  lemma {:induction false} LexPlain(s: string, i: nat, j: nat)
    requires i <= j <= |s|
    requires forall k :: i <= k < j ==> PlainChar(s[k])
    requires Peek(s, j) == '"' || Peek(s, j) == '\0'
    ensures LexString(s, i) == Lexed(s[i..j], j)
    decreases j - i
  {
    if i < j {
      LexPlain(s, i + 1, j);
      assert s[i..j] == [s[i]] + s[i + 1..j];
    }
  }

  // ---------------------------------------------------------------- examples

  /** A backslash before `t`, `n` or `r` emits the letter and leaves the
      cursor on it, so the letter is emitted twice. */
  lemma LetterEscapeTwice(c: char)
    requires c == 't' || c == 'n' || c == 'r'
    ensures Load("\"\\" + [c] + "\"") == Ok(JString([c, c]))
  {
    var s := "\"\\" + [c] + "\"";
    assert |s| == 4 && s[0] == '"' && s[1] == '\\' && s[2] == c && s[3] == '"';
    assert SkipWs(s, 0) == 0;
    assert LexString(s, 3) == Lexed("", 3);
    assert LexString(s, 2) == Lexed([c], 3);
    assert LexString(s, 1) == Lexed([c, c], 3);
    LoadOfParse(s, Ok(Parsed(JString([c, c]), 3)));
  }

  /** A backslash before any other plain character except `'` is kept: the
      loop emits the backslash, then reads the character as it is. */
  lemma UnknownEscapeKept(c: char)
    requires PlainChar(c) && c != 't' && c != 'n' && c != 'r' && c != '\''
    ensures Load("\"\\" + [c] + "\"") == Ok(JString(['\\', c]))
  {
    var s := "\"\\" + [c] + "\"";
    assert |s| == 4 && s[0] == '"' && s[1] == '\\' && s[2] == c && s[3] == '"';
    assert SkipWs(s, 0) == 0;
    assert LexString(s, 3) == Lexed("", 3);
    assert LexString(s, 2) == Lexed([c], 3);
    assert LexString(s, 1) == Lexed(['\\', c], 3);
    LoadOfParse(s, Ok(Parsed(JString(['\\', c]), 3)));
  }

  /** An escaped tab decodes to the letter twice. */
  lemma TabDecodesTwice()
    ensures Load("\"\\t\"") == Ok(JString("tt"))
  {
    var s := "\"\\t\"";
    assert SkipWs(s, 0) == 0;
    assert LexString(s, 3) == Lexed("", 3);
    assert LexString(s, 2) == Lexed("t", 3);
    assert LexString(s, 1) == Lexed("tt", 3);
  }

  /** An array cut short. */
  const Truncated: string := "[1, 2"

  lemma TruncatedFirst()
    ensures ParseElems(Truncated, 1, []) == ParseElems(Truncated, 3, [JInt(0)])
  {
    var s := Truncated;
    assert SkipWs(s, 1) == 1 && RunEnd(s, 1, NumberChars) == 2;
    assert Parse(s, 1) == Ok(Parsed(JInt(0), 2));
    assert SkipWs(s, 2) == 2;
    ElemsContinue(s, 1, 1, [], JInt(0), 2, 2);
  }

  /** The array's closing `expect` reads past the terminating NUL. */
  lemma TruncatedArray()
    ensures Load(Truncated) == Undefined
  {
    var s := Truncated;
    assert SkipWs(s, 0) == 0 && SkipWs(s, 1) == 1;
    ParseOpensArray(s, 0);
    TruncatedFirst();
    assert SkipWs(s, 3) == 4 && RunEnd(s, 4, NumberChars) == 5;
    assert Parse(s, 0) == Undefined;
    LoadOfParse(s, Undefined);
  }

  /** An array with a NUL inside the text, before the closing bracket. */
  const EmbeddedNul: string := "[1\0]"

  /** `_load`'s dispatch at every level, `skip_whitespace`, the key loop
      and the string loop stop at a NUL, while `expect` passes over it: inside
      an array the closing `expect` meets the NUL, advances past it and
      reads the `]` after it for its message, so `[1` followed by a NUL
      and `]` loads as `[0]` although the same text without its last
      character is undefined. */
  lemma EmbeddedNulArray()
    ensures Load(EmbeddedNul) == Ok(JArray([JInt(0)]))
  {
    var s := EmbeddedNul;
    assert SkipWs(s, 0) == 0 && SkipWs(s, 1) == 1 && RunEnd(s, 1, NumberChars) == 2;
    assert Parse(s, 1) == Ok(Parsed(JInt(0), 2));
    assert SkipWs(s, 2) == 2;
    ElemsStop(s, 1, 1, [], JInt(0), 2, 2);
    assert [] + [JInt(0)] == [JInt(0)];
    ArrayOpens(s, 1);
    LoadArray(s, JArray([JInt(0)]), 3);
  }

  /** `{}` is the default value, an empty Object. */
  lemma EmptyObject()
    ensures Load("{}") == Ok(Default())
  {
  }

  /** An Object with a repeated key. */
  const Repeated: string := "{\"a\":true,\"a\":null}"

  lemma RepeatedFirst()
    ensures ParseMember(Repeated, 1) == Ok(Member("a", JBool(true), 9))
  {
    var s := Repeated;
    assert SkipWs(s, 1) == 1 && SkipWs(s, 4) == 4 && SkipWs(s, 5) == 5;
    assert RunEnd(s, 2, KeyChars) == 3 && s[2..3] == "a";
    assert Parse(s, 5) == Ok(Parsed(JBool(true), 9));
    MemberRead(s, 1, 1, 3, 4, 5, JBool(true), 9);
  }

  lemma RepeatedSecond()
    ensures ParseMember(Repeated, 10) == Ok(Member("a", JNull, 18))
  {
    var s := Repeated;
    assert SkipWs(s, 10) == 10 && SkipWs(s, 13) == 13 && SkipWs(s, 14) == 14;
    assert RunEnd(s, 11, KeyChars) == 12 && s[11..12] == "a";
    assert Parse(s, 14) == Ok(Parsed(JNull, 18));
    MemberRead(s, 10, 10, 12, 13, 14, JNull, 18);
  }

  lemma RepeatedTail()
    ensures ParseEntries(Repeated, 10, [Entry("a", JBool(true))]) == Ok(Parsed(JObject([Entry("a", JNull)]), 19))
  {
    var s := Repeated;
    var first := [Entry("a", JBool(true))];
    var last := [Entry("a", JNull)];
    assert SkipWs(s, 18) == 18;
    PutOverwrite([], "a", JBool(true), JNull);
    assert Put(first, "a", JNull) == last;
    RepeatedSecond();
    EntriesStop(s, 10, first, "a", JNull, 18, 18);
    assert CloseObject(s, 18, last) == Ok(Parsed(JObject(last), 19));
  }

  lemma RepeatedEntries()
    ensures ParseEntries(Repeated, 1, []) == Ok(Parsed(JObject([Entry("a", JNull)]), 19))
  {
    var s := Repeated;
    assert SkipWs(s, 9) == 9;
    assert Put([], "a", JBool(true)) == [Entry("a", JBool(true))];
    RepeatedFirst();
    EntriesContinue(s, 1, [], "a", JBool(true), 9, 9);
    RepeatedTail();
  }

  /** A repeated key keeps the last value. */
  lemma RepeatedKey()
    ensures Load(Repeated) == Ok(JObject([Entry("a", JNull)]))
  {
    var s := Repeated;
    assert SkipWs(s, 1) == 1;
    ObjectOpens(s, 1);
    RepeatedEntries();
    LoadObject(s, JObject([Entry("a", JNull)]), 19);
  }

  /** Two strings in an array: the first string's closing quote is left
      unread, so the array's closing `expect` consumes it and the second
      string is never read. */
  const TwoStrings: string := "[\"a\", \"b\"]"

  lemma TwoStringsFirst()
    ensures Parse(TwoStrings, 1) == Ok(Parsed(JString("a"), 3))
  {
    var s := TwoStrings;
    assert SkipWs(s, 1) == 1 && s[1] == '"';
    LexPlain(s, 2, 3);
    assert s[2..3] == "a";
  }

  lemma TwoStringsArray()
    ensures Load(TwoStrings) == Ok(JArray([JString("a")]))
  {
    var s := TwoStrings;
    assert SkipWs(s, 1) == 1 && SkipWs(s, 3) == 3;
    TwoStringsFirst();
    ArrayOpens(s, 1);
    ElemsStop(s, 1, 1, [], JString("a"), 3, 3);
    assert [] + [JString("a")] == [JString("a")];
    LoadArray(s, JArray([JString("a")]), 4);
  }
}

=== FILE: round_trip.dfy ===
/** Reading back what the writer wrote: `load(dump(v))` for every value the
    reader can take back, and the cases where it cannot. */
module RoundTrip {
  import opened Outcomes
  import opened Chars
  import opened OrderedMaps
  import opened Values
  import opened Escaping
  import opened Serializer
  import opened Layout
  import opened Parser
  import opened ParserFacts

  // ---------------------------------------------------------------- the readable fragment

  /** Values whose text the reader takes back: no strings (the string reader
      leaves the closing quote unread, which loses whatever follows the string
      inside a container),
      no doubles (their text is left open), and every key passes the Object
      constructor's check. */
  predicate Plain(v: Json)
    decreases v
  {
    match v
    case JString(_) => false
    case JFloat(_) => false
    case JObject(es) => forall e | e in es :: ValidKey(e.key) && Plain(e.val)
    case JArray(es) => forall e | e in es :: Plain(e)
    case _ => true
  }

  /** `Plain` and `WellFormed` together, stated element by element the way
      the readers walk a container. */
  predicate Readable(v: Json)
    decreases v
  {
    match v
    case JString(_) => false
    case JFloat(_) => false
    case JArray(es) => ReadableAll(es)
    case JObject(es) => Sorted(es) && ReadableEntries(es)
    case _ => true
  }

  predicate ReadableAll(es: seq<Json>)
    decreases es
  {
    |es| == 0 || (Readable(es[0]) && ReadableAll(es[1..]))
  }

  predicate ReadableEntries(es: seq<Entry<Json>>)
    decreases es
  {
    |es| == 0 || (ValidKey(es[0].key) && Readable(es[0].val) && ReadableEntries(es[1..]))
  }

  /** A plain, well-formed value is readable. */
  lemma {:induction false} PlainReadable(v: Json)
    requires Plain(v) && WellFormed(v)
    ensures Readable(v)
    decreases v
  {
    match v
    case JArray(es) => PlainReadableAll(es);
    case JObject(es) => PlainReadableEntries(es);
    case _ =>
  }

  lemma {:induction false} PlainReadableAll(es: seq<Json>)
    requires forall e | e in es :: Plain(e) && WellFormed(e)
    ensures ReadableAll(es)
    decreases es
  {
    if |es| != 0 {
      assert es[0] in es;
      PlainReadable(es[0]);
      assert forall e | e in es[1..] :: e in es;
      PlainReadableAll(es[1..]);
    }
  }

  lemma {:induction false} PlainReadableEntries(es: seq<Entry<Json>>)
    requires forall e | e in es :: ValidKey(e.key) && Plain(e.val) && WellFormed(e.val)
    ensures ReadableEntries(es)
    decreases es
  {
    if |es| != 0 {
      assert es[0] in es;
      PlainReadable(es[0].val);
      assert forall e | e in es[1..] :: e in es;
      PlainReadableEntries(es[1..]);
    }
  }

  /** The value with every `int` replaced by 0, which is all the number
      reader ever yields. */
  function Zeroed(v: Json): (r: Json)
    ensures forall t :: Holds(r, t) <==> Holds(v, t)
    decreases v
  {
    match v
    case JInt(_) => JInt(0)
    case JArray(es) => JArray(ZeroedAll(es))
    case JObject(es) => JObject(ZeroedEntries(es))
    case _ => v
  }

  function ZeroedAll(es: seq<Json>): (r: seq<Json>)
    ensures |r| == |es|
    decreases es
  {
    if |es| == 0 then [] else [Zeroed(es[0])] + ZeroedAll(es[1..])
  }

  function ZeroedEntries(es: seq<Entry<Json>>): (r: seq<Entry<Json>>)
    ensures |r| == |es|
    ensures forall i :: 0 <= i < |es| ==> r[i].key == es[i].key
    decreases es
  {
    if |es| == 0 then [] else [Entry(es[0].key, Zeroed(es[0].val))] + ZeroedEntries(es[1..])
  }

  /** Reading one more element extends what was read before it. */
  lemma {:induction false} ZeroedAllCons(acc: seq<Json>, es: seq<Json>)
    requires |es| != 0
    ensures acc + ZeroedAll(es) == (acc + [Zeroed(es[0])]) + ZeroedAll(es[1..])
  {
    assert ZeroedAll(es) == [Zeroed(es[0])] + ZeroedAll(es[1..]);
    AppendAssoc(acc, [Zeroed(es[0])], ZeroedAll(es[1..]));
  }

  lemma {:induction false} ZeroedEntriesCons(obj: seq<Entry<Json>>, es: seq<Entry<Json>>)
    requires |es| != 0
    ensures obj + ZeroedEntries(es) == (obj + [Entry(es[0].key, Zeroed(es[0].val))]) + ZeroedEntries(es[1..])
  {
    assert ZeroedEntries(es) == [Entry(es[0].key, Zeroed(es[0].val))] + ZeroedEntries(es[1..]);
    AppendAssoc(obj, [Entry(es[0].key, Zeroed(es[0].val))], ZeroedEntries(es[1..]));
  }

  /** Reading the last element completes what was read before it. */
  lemma {:induction false} ZeroedAllOne(acc: seq<Json>, es: seq<Json>)
    requires |es| == 1
    ensures acc + ZeroedAll(es) == acc + [Zeroed(es[0])]
  {
    assert ZeroedAll(es[1..]) == [];
  }

  lemma {:induction false} ZeroedEntriesOne(obj: seq<Entry<Json>>, es: seq<Entry<Json>>)
    requires |es| == 1
    ensures obj + ZeroedEntries(es) == obj + [Entry(es[0].key, Zeroed(es[0].val))]
  {
    assert ZeroedEntries(es[1..]) == [];
  }

  // ---------------------------------------------------------------- positions in the text

  /** Character `x` of `t` is the character of `s` at `i + x`. */
  predicate Agree(s: string, t: string, i: nat, x: nat) {
    i + x < |s| && x < |t| && s[i + x] == t[x]
  }

  /** `t` is written in `s` from index `i` on.  The characters are related
      only through `Agree`, so a fact about one piece of the text is used
      only where a proof asks about its characters. */
  predicate OccursAt(s: string, t: string, i: nat) {
    i + |t| <= |s| && forall x {:trigger Agree(s, t, i, x)} :: 0 <= x < |t| ==> Agree(s, t, i, x)
  }

  /** Text written at `i` as two pieces is the first piece at `i` and the
      second right after it. */
  lemma {:induction false} OccursSplit(s: string, a: string, b: string, i: nat, j: nat)
    requires OccursAt(s, a + b, i) && j == i + |a|
    ensures OccursAt(s, a, i) && OccursAt(s, b, j)
  {
    forall x | 0 <= x < |a|
      ensures Agree(s, a, i, x)
    {
      assert Agree(s, a + b, i, x);
    }
    forall x | 0 <= x < |b|
      ensures Agree(s, b, j, x)
    {
      assert Agree(s, a + b, i, |a| + x);
    }
  }

  lemma {:induction false} OccursIndex(s: string, t: string, i: nat, x: nat)
    requires OccursAt(s, t, i) && x < |t|
    ensures i + x < |s| && s[i + x] == t[x]
  {
    assert Agree(s, t, i, x);
  }

  lemma {:induction false} OccursHead(s: string, t: string, i: nat)
    requires OccursAt(s, t, i) && |t| != 0
    ensures i < |s| && s[i] == t[0]
  {
    assert Agree(s, t, i, 0);
  }

  /** Without its first character, the text is written one place later. */
  lemma {:induction false} OccursTail(s: string, t: string, i: nat)
    requires OccursAt(s, t, i) && |t| != 0
    ensures i < |s| && s[i] == t[0] && OccursAt(s, t[1..], i + 1)
  {
    assert Agree(s, t, i, 0);
    var rest, j := t[1..], i + 1;
    forall x | 0 <= x < |rest|
      ensures Agree(s, rest, j, x)
    {
      assert Agree(s, t, i, x + 1);
    }
  }

  /** The characters of `t` are the slice of `s` they occupy. */
  lemma {:induction false} OccursSlice(s: string, t: string, i: nat)
    requires OccursAt(s, t, i)
    ensures s[i..i + |t|] == t
  {
    forall x | 0 <= x < |t|
      ensures s[i..i + |t|][x] == t[x]
    {
      assert Agree(s, t, i, x);
    }
  }

  /** Every suffix of `s` is written where it starts. */
  lemma {:induction false} OccursSuffix(s: string, i: nat)
    requires i <= |s|
    ensures OccursAt(s, s[i..], i)
  {
    var rest := s[i..];
    forall x | 0 <= x < |rest|
      ensures Agree(s, rest, i, x)
    {
    }
  }

  predicate AllSpace(t: string) {
    forall k :: 0 <= k < |t| ==> IsSpace(t[k])
  }

  /** Whitespace written at `i` is skipped as a whole. */
  lemma {:induction false} SkipOver(s: string, i: nat, t: string)
    requires OccursAt(s, t, i) && AllSpace(t)
    ensures SkipWs(s, i) == SkipWs(s, i + |t|)
    decreases |t|
  {
    if |t| != 0 {
      OccursTail(s, t, i);
      SkipOver(s, i + 1, t[1..]);
    }
  }

  lemma {:induction false} SkipAt(s: string, i: nat)
    requires i < |s| && !IsSpace(s[i])
    ensures SkipWs(s, i) == i
  {
  }

  /** Whitespace followed by something else: the skip stops right after it. */
  lemma {:induction false} SkipTo(s: string, i: nat, t: string)
    requires OccursAt(s, t, i) && AllSpace(t) && i + |t| < |s| && !IsSpace(s[i + |t|])
    ensures SkipWs(s, i) == i + |t|
  {
    SkipOver(s, i, t);
    SkipAt(s, i + |t|);
  }

  lemma {:induction false} SkipWsAgain(s: string, i: nat)
    requires i <= |s|
    ensures SkipWs(s, SkipWs(s, i)) == SkipWs(s, i)
  {
    var j := SkipWs(s, i);
    if j < |s| {
      SkipAt(s, j);
    }
  }

  /** A run written at `i` and followed by something outside it ends there. */
  lemma {:induction false} RunEndOver(s: string, i: nat, t: string, run: Run)
    requires OccursAt(s, t, i)
    requires forall k :: 0 <= k < |t| ==> InRun(run, t[k])
    requires !InRun(run, Peek(s, i + |t|))
    ensures RunEnd(s, i, run) == i + |t|
    decreases |t|
  {
    if |t| != 0 {
      OccursTail(s, t, i);
      RunEndOver(s, i + 1, t[1..], run);
    }
  }

  /** One whitespace character is skipped like the rest. */
  lemma {:induction false} SkipOne(s: string, i: nat)
    requires i < |s| && IsSpace(s[i])
    ensures SkipWs(s, i) == SkipWs(s, i + 1)
  {
  }

  // ---------------------------------------------------------------- facts about the written text

  lemma {:induction false} IndentSpace(width: nat, depth: nat)
    ensures AllSpace(Indent(width, depth))
  {
    IndentIsSpaces(width, depth);
  }

  /** The text before a closing bracket is whitespace, and empty in compact mode. */
  lemma {:induction false} ClosingSpace(width: nat, depth: nat)
    ensures AllSpace(Closing(width, depth))
  {
    IndentIsSpaces(width, depth);
  }

  /** The space compact mode writes after a separating comma. */
  function Gap(w: nat): (r: string)
    ensures AllSpace(r)
  {
    if w == 0 then " " else ""
  }

  lemma {:induction false} SeparatorGap(w: nat)
    ensures Separator(w, true) == "," + Gap(w)
  {
  }

  /** A character that can begin a readable value's text. */
  predicate Starts(c: char) {
    c == '[' || c == '{' || c == 'n' || c == 't' || c == 'f' || IsNumChar(c)
  }

  lemma {:induction false} DumpStart(v: Json, width: nat, depth: nat, fmt: FloatFormat)
    requires Readable(v)
    ensures |Dump(v, width, depth, true, fmt)| != 0 && Starts(Dump(v, width, depth, true, fmt)[0])
  {
  }

  /** A readable value's text, written at `i`, starts there with a
      character that is not whitespace. */
  lemma {:induction false} DumpAt(s: string, i: nat, v: Json, width: nat, depth: nat, fmt: FloatFormat)
    requires Readable(v) && OccursAt(s, Dump(v, width, depth, true, fmt), i)
    ensures i < |s| && Starts(s[i]) && !IsSpace(s[i])
  {
    DumpStart(v, width, depth, fmt);
    OccursHead(s, Dump(v, width, depth, true, fmt), i);
  }

  lemma {:induction false} AppendAssoc<T>(a: seq<T>, b: seq<T>, c: seq<T>)
    ensures a + b + c == a + (b + c)
  {
  }

  /** Whitespace from `q` up to the character `c` at `u`: the skip lands on `c`. */
  lemma {:induction false} CloseAt(s: string, q: nat, u: nat, cl: string, c: char)
    requires AllSpace(cl) && u == q + |cl| && OccursAt(s, cl, q) && OccursAt(s, [c], u) && !IsSpace(c)
    ensures u < |s| && s[u] == c && SkipWs(s, q) == u
    ensures q < |s| && (IsSpace(s[q]) || s[q] == c)
  {
    OccursHead(s, [c], u);
    SkipTo(s, q, cl);
    if |cl| != 0 {
      OccursHead(s, cl, q);
    }
  }

  // ---------------------------------------------------------------- the shape of the written text

  /** A scalar's text is written without indentation. */
  lemma {:induction false} ScalarText(s: string, i: nat, v: Json, w: nat, d: nat, fmt: FloatFormat)
    requires !v.JArray? && !v.JObject?
    requires OccursAt(s, Dump(v, w, d, true, fmt), i)
    ensures OccursAt(s, Scalar(v, fmt), i) && |Dump(v, w, d, true, fmt)| == |Scalar(v, fmt)|
  {
    assert Dump(v, w, d, true, fmt) == "" + Scalar(v, fmt);
    OccursSplit(s, "", Scalar(v, fmt), i, i);
  }

  /** A bracketed text at `i`: the opening character, the body, the
      closing whitespace at `t` and the closing character at `u`. */
  lemma {:induction false} Bracketed(s: string, i: nat, open: char, body: string, cl: string, close: char)
    returns (t: nat, u: nat)
    requires OccursAt(s, [open] + body + cl + [close], i)
    ensures i < |s| && s[i] == open
    ensures t == i + 1 + |body| && u == t + |cl|
    ensures OccursAt(s, body, i + 1)
    ensures OccursAt(s, cl, t) && OccursAt(s, [close], u)
    ensures i + |[open] + body + cl + [close]| == u + 1
  {
    t := i + 1 + |body|;
    u := t + |cl|;
    OccursSplit(s, [open] + body + cl, [close], i, u);
    OccursSplit(s, [open] + body, cl, i, t);
    OccursSplit(s, [open], body, i, i + 1);
    OccursHead(s, [open], i);
  }

  /** An inline array at `i`: `[`, the elements, the closing whitespace at
      `t` and `]` at `u`. */
  lemma {:induction false} ArrayText(s: string, i: nat, es: seq<Json>, w: nat, d: nat, fmt: FloatFormat)
    returns (t: nat, u: nat)
    requires OccursAt(s, Dump(JArray(es), w, d, true, fmt), i)
    ensures i < |s| && s[i] == '['
    ensures t == i + 1 + |DumpElems(es, w, d + 1, fmt)| && u == t + |Closing(w, d)|
    ensures OccursAt(s, DumpElems(es, w, d + 1, fmt), i + 1)
    ensures OccursAt(s, Closing(w, d), t) && OccursAt(s, "]", u)
    ensures i + |Dump(JArray(es), w, d, true, fmt)| == u + 1
  {
    var de := DumpElems(es, w, d + 1, fmt);
    var cl := Closing(w, d);
    assert Dump(JArray(es), w, d, true, fmt) == ['['] + de + cl + [']'];
    t, u := Bracketed(s, i, '[', de, cl, ']');
  }

  /** An inline Object at `i`: `{`, the entries, the closing whitespace at
      `t` and `}` at `u`. */
  lemma {:induction false} ObjectText(s: string, i: nat, es: seq<Entry<Json>>, w: nat, d: nat, fmt: FloatFormat)
    returns (t: nat, u: nat)
    requires OccursAt(s, Dump(JObject(es), w, d, true, fmt), i)
    ensures i < |s| && s[i] == '{'
    ensures t == i + 1 + |DumpEntries(es, w, d + 1, fmt)| && u == t + |Closing(w, d)|
    ensures OccursAt(s, DumpEntries(es, w, d + 1, fmt), i + 1)
    ensures OccursAt(s, Closing(w, d), t) && OccursAt(s, "}", u)
    ensures i + |Dump(JObject(es), w, d, true, fmt)| == u + 1
  {
    var de := DumpEntries(es, w, d + 1, fmt);
    var cl := Closing(w, d);
    assert Dump(JObject(es), w, d, true, fmt) == ['{'] + de + cl + ['}'];
    t, u := Bracketed(s, i, '{', de, cl, '}');
  }

  /** The pieces of the elements' text: a line break at `p`, the
      indentation at `m`, the first element at `k`, a separator at `q`, and
      the other elements at `r`. */
  lemma {:induction false} ElemsParts(s: string, p: nat, es: seq<Json>, w: nat, dd: nat, fmt: FloatFormat)
    returns (m: nat, k: nat, q: nat, r: nat)
    requires |es| != 0 && OccursAt(s, DumpElems(es, w, dd, fmt), p)
    ensures m == p + |Newline(w)| && k == m + |Indent(w, dd)|
    ensures q == k + |Dump(es[0], w, dd, true, fmt)| && r == q + |Separator(w, |es| > 1)|
    ensures OccursAt(s, Newline(w), p) && OccursAt(s, Indent(w, dd), m)
    ensures OccursAt(s, Dump(es[0], w, dd, true, fmt), k) && OccursAt(s, Separator(w, |es| > 1), q)
    ensures OccursAt(s, DumpElems(es[1..], w, dd, fmt), r)
    ensures p + |DumpElems(es, w, dd, fmt)| == r + |DumpElems(es[1..], w, dd, fmt)|
  {
    var nl, ind, item := Newline(w), Indent(w, dd), Dump(es[0], w, dd, true, fmt);
    var d0 := Dump(es[0], w, dd, false, fmt);
    var sep := Separator(w, |es| > 1);
    var dr := DumpElems(es[1..], w, dd, fmt);
    DumpLead(es[0], w, dd, fmt);
    m := p + |nl|;
    k := m + |ind|;
    q := k + |item|;
    r := q + |sep|;
    OccursSplit(s, nl + d0 + sep, dr, p, r);
    OccursSplit(s, nl + d0, sep, p, q);
    OccursSplit(s, nl, d0, p, m);
    OccursSplit(s, ind, item, m, k);
  }

  /** The pieces of the entries' text: a line break at `p`, the
      indentation at `m`, the first key at `a`, its value at `k`, a
      separator at `q`, and the other entries at `r`. */
  lemma {:induction false} EntriesParts(s: string, p: nat, es: seq<Entry<Json>>, w: nat, dd: nat, fmt: FloatFormat)
    returns (m: nat, a: nat, k: nat, q: nat, r: nat)
    requires |es| != 0 && OccursAt(s, DumpEntries(es, w, dd, fmt), p)
    ensures m == p + |Newline(w)| && a == m + |Indent(w, dd)| && k == a + |KeyText(es[0].key)|
    ensures q == k + |Dump(es[0].val, w, dd, true, fmt)| && r == q + |Separator(w, |es| > 1)|
    ensures OccursAt(s, Newline(w), p) && OccursAt(s, Indent(w, dd), m) && OccursAt(s, KeyText(es[0].key), a)
    ensures OccursAt(s, Dump(es[0].val, w, dd, true, fmt), k) && OccursAt(s, Separator(w, |es| > 1), q)
    ensures OccursAt(s, DumpEntries(es[1..], w, dd, fmt), r)
    ensures p + |DumpEntries(es, w, dd, fmt)| == r + |DumpEntries(es[1..], w, dd, fmt)|
  {
    var nl, ind, kt := Newline(w), Indent(w, dd), KeyText(es[0].key);
    var item, sep := Dump(es[0].val, w, dd, true, fmt), Separator(w, |es| > 1);
    var dr := DumpEntries(es[1..], w, dd, fmt);
    m := p + |nl|;
    a := m + |ind|;
    k := a + |kt|;
    q := k + |item|;
    r := q + |sep|;
    OccursSplit(s, nl + ind + kt + item + sep, dr, p, r);
    OccursSplit(s, nl + ind + kt + item, sep, p, q);
    OccursSplit(s, nl + ind + kt, item, p, k);
    OccursSplit(s, nl + ind, kt, p, a);
    OccursSplit(s, nl, ind, p, m);
  }

  lemma {:induction false} NewlineSpace(w: nat)
    ensures AllSpace(Newline(w))
  {
  }

  /** A line break at `p` and indentation at `m` before a non-space at `k`:
      the skip lands on `k`. */
  lemma {:induction false} LeadTo(s: string, p: nat, m: nat, k: nat, nl: string, ind: string, t: string)
    requires AllSpace(nl) && AllSpace(ind) && m == p + |nl| && k == m + |ind|
    requires OccursAt(s, nl, p) && OccursAt(s, ind, m) && OccursAt(s, t, k)
    requires |t| != 0 && !IsSpace(t[0])
    ensures k < |s| && SkipWs(s, p) == k && s[k] == t[0]
  {
    OccursHead(s, t, k);
    SkipOver(s, p, nl);
    SkipTo(s, m, ind);
  }

  /** A separator written at `q`: the comma, then the whitespace skipped
      after it. */
  lemma {:induction false} CommaAt(s: string, q: nat, r: nat, w: nat, more: bool)
    requires more && OccursAt(s, Separator(w, more), q) && r == q + |Separator(w, more)|
    ensures q < |s| && s[q] == ',' && SkipWs(s, q + 1) == SkipWs(s, r)
  {
    SeparatorGap(w);
    OccursSplit(s, ",", Gap(w), q, q + 1);
    OccursHead(s, ",", q);
    SkipOver(s, q + 1, Gap(w));
  }

  /** The text of the first element: whitespace up to it at `k`, its text
      up to `q`, the separator up to `r`, and the rest of the elements. */
  lemma {:induction false} ElemHead(s: string, p: nat, es: seq<Json>, w: nat, dd: nat, fmt: FloatFormat)
    returns (k: nat, q: nat, r: nat)
    requires |es| != 0 && Readable(es[0]) && OccursAt(s, DumpElems(es, w, dd, fmt), p)
    ensures k < |s| && SkipWs(s, p) == k && Starts(s[k])
    ensures OccursAt(s, Dump(es[0], w, dd, true, fmt), k) && q == k + |Dump(es[0], w, dd, true, fmt)|
    ensures OccursAt(s, Separator(w, |es| > 1), q) && r == q + |Separator(w, |es| > 1)|
    ensures OccursAt(s, DumpElems(es[1..], w, dd, fmt), r)
    ensures p + |DumpElems(es, w, dd, fmt)| == r + |DumpElems(es[1..], w, dd, fmt)|
  {
    var m;
    m, k, q, r := ElemsParts(s, p, es, w, dd, fmt);
    NewlineSpace(w);
    IndentSpace(w, dd);
    DumpStart(es[0], w, dd, fmt);
    LeadTo(s, p, m, k, Newline(w), Indent(w, dd), Dump(es[0], w, dd, true, fmt));
  }

  /** The text of the first entry: whitespace up to its key at `a`, its
      value at `k` up to `q`, the separator up to `r`, and the rest of the
      entries. */
  lemma {:induction false} EntryHead(s: string, p: nat, es: seq<Entry<Json>>, w: nat, dd: nat, fmt: FloatFormat)
    returns (a: nat, k: nat, q: nat, r: nat)
    requires |es| != 0 && OccursAt(s, DumpEntries(es, w, dd, fmt), p)
    ensures a < |s| && SkipWs(s, p) == a && s[a] == '"'
    ensures OccursAt(s, KeyText(es[0].key), a) && k == a + |KeyText(es[0].key)|
    ensures OccursAt(s, Dump(es[0].val, w, dd, true, fmt), k)
    ensures q == k + |Dump(es[0].val, w, dd, true, fmt)|
    ensures OccursAt(s, Separator(w, |es| > 1), q) && r == q + |Separator(w, |es| > 1)|
    ensures OccursAt(s, DumpEntries(es[1..], w, dd, fmt), r)
    ensures p + |DumpEntries(es, w, dd, fmt)| == r + |DumpEntries(es[1..], w, dd, fmt)|
  {
    var m;
    m, a, k, q, r := EntriesParts(s, p, es, w, dd, fmt);
    NewlineSpace(w);
    IndentSpace(w, dd);
    assert KeyText(es[0].key)[0] == '"';
    LeadTo(s, p, m, a, Newline(w), Indent(w, dd), KeyText(es[0].key));
  }

  /** The text of a key written at `a`, as the member reader walks it: the
      key's characters up to the closing quote, the colon right after it,
      and the space before the value. */
  lemma {:induction false} KeyRead(s: string, a: nat, k: string, v: nat) returns (b: nat, c: nat)
    requires ValidKey(k) && OccursAt(s, KeyText(k), a) && v == a + |KeyText(k)|
    requires v < |s| && !IsSpace(s[v])
    ensures b == a + 1 + |k| && c == b + 1 && v == c + 2
    ensures s[a + 1..b] == k
    ensures RunEnd(s, a + 1, KeyChars) == b && b < |s|
    ensures SkipWs(s, b + 1) == c && c < |s|
    ensures SkipWs(s, c + 1) == v
  {
    var colon := "\": ";
    assert KeyText(k) == "\"" + k + colon;
    b := a + 1 + |k|;
    c := b + 1;
    OccursSplit(s, "\"" + k, colon, a, b);
    OccursSplit(s, "\"", k, a, a + 1);
    OccursIndex(s, colon, b, 0);
    OccursIndex(s, colon, b, 1);
    OccursIndex(s, colon, b, 2);
    RunEndOver(s, a + 1, k, KeyChars);
    OccursSlice(s, k, a + 1);
    SkipAt(s, c);
    SkipOne(s, c + 1);
    SkipAt(s, v);
  }

  // ---------------------------------------------------------------- reading the written text

  /** A bracket at `i`: reading there is reading what follows it. */
  lemma {:induction false} OpenAt(s: string, i: nat, c: char, r: Result<Parsed>)
    requires i < |s| && s[i] == c && (c == '[' || c == '{')
    requires r == (if c == '[' then ParseArray(s, i + 1) else ParseObject(s, i + 1))
    ensures Parse(s, i) == r
  {
    SkipAt(s, i);
  }

  /** A scalar written at `i` and ending at `e` is read back up to `e`; an
      `int` comes back as 0. */
  lemma {:induction false} ScalarOfDump(s: string, i: nat, e: nat, v: Json, fmt: FloatFormat)
    requires v.JNull? || v.JBool? || v.JInt?
    requires OccursAt(s, Scalar(v, fmt), i) && e == i + |Scalar(v, fmt)| && !IsNumChar(Peek(s, e))
    ensures Parse(s, i) == Ok(Parsed(Zeroed(v), e))
  {
    var t := Scalar(v, fmt);
    OccursHead(s, t, i);
    SkipAt(s, i);
    if v.JInt? {
      RunEndOver(s, i, t, NumberChars);
    }
  }

  /** A readable value written inline from `i` to `e` is read back, with
      its ints as 0, and reading stops at `e`. */
  lemma {:induction false} ParseOfDump(s: string, i: nat, e: nat, v: Json, w: nat, d: nat, fmt: FloatFormat)
    requires Readable(v)
    requires OccursAt(s, Dump(v, w, d, true, fmt), i) && e == i + |Dump(v, w, d, true, fmt)|
    requires !IsNumChar(Peek(s, e))
    ensures Parse(s, i) == Ok(Parsed(Zeroed(v), e))
    decreases v, 6
  {
    match v
    case JArray(es) =>
      ArrayValueOfDump(s, i, e, es, w, d, fmt);
    case JObject(es) =>
      ObjectValueOfDump(s, i, e, es, w, d, fmt);
    case _ =>
      ScalarText(s, i, v, w, d, fmt);
      ScalarOfDump(s, i, e, v, fmt);
  }

  lemma {:induction false} ArrayValueOfDump(s: string, i: nat, e: nat, es: seq<Json>, w: nat, d: nat, fmt: FloatFormat)
    requires ReadableAll(es)
    requires OccursAt(s, Dump(JArray(es), w, d, true, fmt), i) && e == i + |Dump(JArray(es), w, d, true, fmt)|
    ensures Parse(s, i) == Ok(Parsed(JArray(ZeroedAll(es)), e))
    decreases es, 5
  {
    var t, u := ArrayText(s, i, es, w, d, fmt);
    ArrayOfDump(s, i + 1, t, u, es, w, d, fmt);
    OpenAt(s, i, '[', ParseArray(s, i + 1));
  }

  lemma {:induction false} ObjectValueOfDump(s: string, i: nat, e: nat, es: seq<Entry<Json>>, w: nat, d: nat, fmt: FloatFormat)
    requires Sorted(es)
    requires ReadableEntries(es)
    requires OccursAt(s, Dump(JObject(es), w, d, true, fmt), i) && e == i + |Dump(JObject(es), w, d, true, fmt)|
    ensures Parse(s, i) == Ok(Parsed(JObject(ZeroedEntries(es)), e))
    decreases es, 5
  {
    var t, u := ObjectText(s, i, es, w, d, fmt);
    ObjectOfDump(s, i + 1, t, u, es, w, d, fmt);
    OpenAt(s, i, '{', ParseObject(s, i + 1));
  }

  /** The closing whitespace at `q` and the closer `c` after it at `u`:
      skipping whitespace from `q` stops at the closer, and no number runs
      on at `q`. */
  lemma {:induction false} ClosingAt(s: string, q: nat, u: nat, w: nat, d: nat, c: char)
    requires c == ']' || c == '}'
    requires OccursAt(s, Closing(w, d), q) && u == q + |Closing(w, d)| && OccursAt(s, [c], u)
    ensures !IsNumChar(Peek(s, q)) && SkipWs(s, q) == u && u < |s| && s[u] == c
  {
    ClosingSpace(w, d);
    CloseAt(s, q, u, Closing(w, d), c);
  }

  /** `[]` with only the closing whitespace between the brackets. */
  lemma {:induction false} EmptyArrayOfDump(s: string, p: nat, u: nat, w: nat, d: nat)
    requires OccursAt(s, Closing(w, d), p) && u == p + |Closing(w, d)| && OccursAt(s, "]", u)
    ensures ParseArray(s, p) == Ok(Parsed(JArray([]), u + 1))
  {
    ClosingAt(s, p, u, w, d, ']');
  }

  /** `{}` with only the closing whitespace between the braces. */
  lemma {:induction false} EmptyObjectOfDump(s: string, p: nat, u: nat, w: nat, d: nat)
    requires OccursAt(s, Closing(w, d), p) && u == p + |Closing(w, d)| && OccursAt(s, "}", u)
    ensures ParseObject(s, p) == Ok(Parsed(JObject([]), u + 1))
  {
    ClosingAt(s, p, u, w, d, '}');
  }

  /** From just after `[` at `p`: the elements up to `t`, the closing
      whitespace and `]` at `u`. */
  lemma {:induction false} ArrayOfDump(s: string, p: nat, t: nat, u: nat, es: seq<Json>, w: nat, d: nat, fmt: FloatFormat)
    requires ReadableAll(es)
    requires OccursAt(s, DumpElems(es, w, d + 1, fmt), p) && t == p + |DumpElems(es, w, d + 1, fmt)|
    requires OccursAt(s, Closing(w, d), t) && u == t + |Closing(w, d)| && OccursAt(s, "]", u)
    ensures ParseArray(s, p) == Ok(Parsed(JArray(ZeroedAll(es)), u + 1))
    decreases es, 4
  {
    if |es| == 0 {
      EmptyArrayOfDump(s, p, u, w, d);
      assert ZeroedAll(es) == [];
    } else {
      ArrayBodyOfDump(s, p, t, u, es, w, d, fmt);
    }
  }

  /** The same, for one or more elements: the array opens into the
      element loop, which reads them all. */
  lemma {:induction false} ArrayBodyOfDump(s: string, p: nat, t: nat, u: nat, es: seq<Json>, w: nat, d: nat, fmt: FloatFormat)
    requires |es| != 0 && ReadableAll(es)
    requires OccursAt(s, DumpElems(es, w, d + 1, fmt), p) && t == p + |DumpElems(es, w, d + 1, fmt)|
    requires OccursAt(s, Closing(w, d), t) && u == t + |Closing(w, d)| && OccursAt(s, "]", u)
    ensures ParseArray(s, p) == Ok(Parsed(JArray(ZeroedAll(es)), u + 1))
    decreases es, 3
  {
    var j := SkipWs(s, p);
    SkipWsAgain(s, p);
    ElemsOfDump(s, j, p, t, u, es, w, d, [], fmt);
    ArrayOpens(s, p);
    assert [] + ZeroedAll(es) == ZeroedAll(es);
  }

  /** An element read at `k` up to a comma at `q`: the loop goes round
      after the comma. */
  lemma {:induction false} ElemsNext(s: string, p0: nat, k: nat, q: nat, acc: seq<Json>, z: Json)
    requires p0 <= |s| && SkipWs(s, p0) == k && Parse(s, k) == Ok(Parsed(z, q))
    requires q < |s| && s[q] == ','
    ensures q + 1 <= |s| && ParseElems(s, p0, acc) == ParseElems(s, q + 1, acc + [z])
  {
    SkipAt(s, q);
    ElemsContinue(s, p0, k, acc, z, q, q);
  }

  /** An element read at `k` up to `q`, then whitespace up to a non-comma at
      `u`: the loop ends there. */
  lemma {:induction false} ElemsEnd(s: string, p0: nat, k: nat, q: nat, u: nat, acc: seq<Json>, z: Json)
    requires p0 <= |s| && SkipWs(s, p0) == k && Parse(s, k) == Ok(Parsed(z, q))
    requires SkipWs(s, q) == u && u < |s| && s[u] != ','
    ensures ParseElems(s, p0, acc) == Ok(Parsed(JArray(acc + [z]), u + 1))
  {
    ElemsStop(s, p0, k, acc, z, q, u);
  }

  /** The element loop, started at `p0`, anywhere in the whitespace before
      the elements' text at `p`. */
  lemma {:induction false} ElemsOfDump(s: string, p0: nat, p: nat, t: nat, u: nat, es: seq<Json>, w: nat, d: nat,
                                       acc: seq<Json>, fmt: FloatFormat)
    requires p0 <= |s| && |es| != 0
    requires ReadableAll(es)
    requires OccursAt(s, DumpElems(es, w, d + 1, fmt), p) && t == p + |DumpElems(es, w, d + 1, fmt)|
    requires OccursAt(s, Closing(w, d), t) && u == t + |Closing(w, d)| && OccursAt(s, "]", u)
    requires SkipWs(s, p0) == SkipWs(s, p)
    ensures Peek(s, SkipWs(s, p0)) != ']'
    ensures ParseElems(s, p0, acc) == Ok(Parsed(JArray(acc + ZeroedAll(es)), u + 1))
    decreases es, 2
  {
    if |es| > 1 {
      ElemsMore(s, p0, p, t, u, es, w, d, acc, fmt);
    } else {
      ElemsLast(s, p0, p, t, u, es, w, d, acc, fmt);
    }
  }

  /** The first of two or more elements read back, and the comma after
      it: the loop goes round at `q + 1` with the element stored, and the
      rest of the elements are written at `r`. */
  lemma {:induction false} ElemStep(s: string, p0: nat, p: nat, es: seq<Json>, w: nat, d: nat,
                                    acc: seq<Json>, fmt: FloatFormat)
    returns (q: nat, r: nat)
    requires p0 <= |s| && |es| > 1 && Readable(es[0])
    requires OccursAt(s, DumpElems(es, w, d + 1, fmt), p)
    requires SkipWs(s, p0) == SkipWs(s, p)
    ensures Peek(s, SkipWs(s, p0)) != ']'
    ensures q + 1 <= |s| && ParseElems(s, p0, acc) == ParseElems(s, q + 1, acc + [Zeroed(es[0])])
    ensures OccursAt(s, DumpElems(es[1..], w, d + 1, fmt), r)
    ensures p + |DumpElems(es, w, d + 1, fmt)| == r + |DumpElems(es[1..], w, d + 1, fmt)|
    ensures SkipWs(s, q + 1) == SkipWs(s, r)
    decreases es, 0
  {
    var k;
    k, q, r := ElemHead(s, p, es, w, d + 1, fmt);
    CommaAt(s, q, r, w, |es| > 1);
    var z := Zeroed(es[0]);
    ParseOfDump(s, k, q, es[0], w, d + 1, fmt);
    ElemsNext(s, p0, k, q, acc, z);
  }

  /** The element loop over two or more elements: the first, a comma, and
      the loop over the rest. */
  lemma {:induction false} ElemsMore(s: string, p0: nat, p: nat, t: nat, u: nat, es: seq<Json>, w: nat, d: nat,
                                     acc: seq<Json>, fmt: FloatFormat)
    requires p0 <= |s| && |es| > 1
    requires ReadableAll(es)
    requires OccursAt(s, DumpElems(es, w, d + 1, fmt), p) && t == p + |DumpElems(es, w, d + 1, fmt)|
    requires OccursAt(s, Closing(w, d), t) && u == t + |Closing(w, d)| && OccursAt(s, "]", u)
    requires SkipWs(s, p0) == SkipWs(s, p)
    ensures Peek(s, SkipWs(s, p0)) != ']'
    ensures ParseElems(s, p0, acc) == Ok(Parsed(JArray(acc + ZeroedAll(es)), u + 1))
    decreases es, 1
  {
    var q, r := ElemStep(s, p0, p, es, w, d, acc, fmt);
    ElemsOfDump(s, q + 1, r, t, u, es[1..], w, d, acc + [Zeroed(es[0])], fmt);
    ElemsJoin(s, p0, q, u, es, acc);
  }

  /** The loop's result over all elements, from its step and its result
      over the rest. */
  lemma {:induction false} ElemsJoin(s: string, p0: nat, q: nat, u: nat, es: seq<Json>, acc: seq<Json>)
    requires |es| > 1
    requires p0 <= |s|
    requires q + 1 <= |s|
    requires ParseElems(s, p0, acc) == ParseElems(s, q + 1, acc + [Zeroed(es[0])])
    requires ParseElems(s, q + 1, acc + [Zeroed(es[0])]) == Ok(Parsed(JArray(acc + [Zeroed(es[0])] + ZeroedAll(es[1..])), u + 1))
    ensures ParseElems(s, p0, acc) == Ok(Parsed(JArray(acc + ZeroedAll(es)), u + 1))
  {
    ZeroedAllCons(acc, es);
  }

  /** The text of the last element: whitespace up to it at `k`, its text up
      to `q`, whitespace up to the closing bracket at `u`. */
  lemma {:induction false} LastElemText(s: string, p: nat, t: nat, u: nat, es: seq<Json>, w: nat, d: nat, fmt: FloatFormat)
    returns (k: nat, q: nat)
    requires |es| == 1 && Readable(es[0])
    requires OccursAt(s, DumpElems(es, w, d + 1, fmt), p) && t == p + |DumpElems(es, w, d + 1, fmt)|
    requires OccursAt(s, Closing(w, d), t) && u == t + |Closing(w, d)| && OccursAt(s, "]", u)
    ensures k < |s| && SkipWs(s, p) == k && Starts(s[k])
    ensures OccursAt(s, Dump(es[0], w, d + 1, true, fmt), k) && q == k + |Dump(es[0], w, d + 1, true, fmt)|
    ensures !IsNumChar(Peek(s, q)) && SkipWs(s, q) == u && u < |s| && s[u] == ']'
  {
    var r;
    k, q, r := ElemHead(s, p, es, w, d + 1, fmt);
    assert r == q && |DumpElems(es[1..], w, d + 1, fmt)| == 0;
    ClosingAt(s, q, u, w, d, ']');
  }

  /** The element loop over the last element: it, then the closing bracket. */
  lemma {:induction false} ElemsLast(s: string, p0: nat, p: nat, t: nat, u: nat, es: seq<Json>, w: nat, d: nat,
                                     acc: seq<Json>, fmt: FloatFormat)
    requires p0 <= |s| && |es| == 1
    requires ReadableAll(es)
    requires OccursAt(s, DumpElems(es, w, d + 1, fmt), p) && t == p + |DumpElems(es, w, d + 1, fmt)|
    requires OccursAt(s, Closing(w, d), t) && u == t + |Closing(w, d)| && OccursAt(s, "]", u)
    requires SkipWs(s, p0) == SkipWs(s, p)
    ensures Peek(s, SkipWs(s, p0)) != ']'
    ensures ParseElems(s, p0, acc) == Ok(Parsed(JArray(acc + ZeroedAll(es)), u + 1))
    decreases es, 1
  {
    var v := es[0];
    var k, q := LastElemText(s, p, t, u, es, w, d, fmt);
    ParseOfDump(s, k, q, v, w, d + 1, fmt);
    ElemsEnd(s, p0, k, q, u, acc, Zeroed(v));
    ZeroedAllOne(acc, es);
  }

  /** From just after `{` at `p`: the entries up to `t`, the closing
      whitespace and `}` at `u`. */
  lemma {:induction false} ObjectOfDump(s: string, p: nat, t: nat, u: nat, es: seq<Entry<Json>>, w: nat, d: nat, fmt: FloatFormat)
    requires Sorted(es)
    requires ReadableEntries(es)
    requires OccursAt(s, DumpEntries(es, w, d + 1, fmt), p) && t == p + |DumpEntries(es, w, d + 1, fmt)|
    requires OccursAt(s, Closing(w, d), t) && u == t + |Closing(w, d)| && OccursAt(s, "}", u)
    ensures ParseObject(s, p) == Ok(Parsed(JObject(ZeroedEntries(es)), u + 1))
    decreases es, 4
  {
    if |es| == 0 {
      EmptyObjectOfDump(s, p, u, w, d);
      assert ZeroedEntries(es) == [];
    } else {
      ObjectBodyOfDump(s, p, t, u, es, w, d, fmt);
    }
  }

  /** The same, for one or more entries: the Object opens into the entry
      loop, which reads them all. */
  lemma {:induction false} ObjectBodyOfDump(s: string, p: nat, t: nat, u: nat, es: seq<Entry<Json>>, w: nat, d: nat, fmt: FloatFormat)
    requires |es| != 0 && Sorted(es)
    requires ReadableEntries(es)
    requires OccursAt(s, DumpEntries(es, w, d + 1, fmt), p) && t == p + |DumpEntries(es, w, d + 1, fmt)|
    requires OccursAt(s, Closing(w, d), t) && u == t + |Closing(w, d)| && OccursAt(s, "}", u)
    ensures ParseObject(s, p) == Ok(Parsed(JObject(ZeroedEntries(es)), u + 1))
    decreases es, 3
  {
    var j := SkipWs(s, p);
    SkipWsAgain(s, p);
    EntriesOfDump(s, j, p, t, u, es, w, d, [], fmt);
    ObjectOpens(s, p);
    assert [] + ZeroedEntries(es) == ZeroedEntries(es);
  }

  /** One `"key": value` member whose key is written at `a` and whose value,
      written at `v`, reads back as `z` ending at `end`; the loop starts at
      `p0` in the whitespace before it. */
  lemma {:induction false} MemberOfDump(s: string, p0: nat, a: nat, v: nat, k: string, z: Json, end: nat)
    requires p0 <= |s| && SkipWs(s, p0) == a
    requires ValidKey(k) && OccursAt(s, KeyText(k), a) && v == a + |KeyText(k)|
    requires v < |s| && !IsSpace(s[v])
    requires Parse(s, v) == Ok(Parsed(z, end))
    ensures ParseMember(s, p0) == Ok(Member(k, z, end))
  {
    var b, c := KeyRead(s, a, k, v);
    MemberRead(s, p0, a, b, c, v, z, end);
  }

  /** Keys read so far stay below the keys still to come once the first of
      them has been read. */
  lemma {:induction false} KeysBelow(obj: seq<Entry<Json>>, es: seq<Entry<Json>>, z: Json)
    requires |es| != 0 && Sorted(es)
    requires forall i, j :: 0 <= i < |obj| && 0 <= j < |es| ==> KeyLess(obj[i].key, es[j].key)
    ensures var updated, rest := obj + [Entry(es[0].key, z)], es[1..];
            forall i, j :: 0 <= i < |updated| && 0 <= j < |rest| ==> KeyLess(updated[i].key, rest[j].key)
  {
    var updated, rest := obj + [Entry(es[0].key, z)], es[1..];
    forall i, j | 0 <= i < |updated| && 0 <= j < |rest|
      ensures KeyLess(updated[i].key, rest[j].key)
    {
      assert rest[j] == es[j + 1];
    }
  }

  /** The entry loop, started at `p0`, anywhere in the whitespace before the
      entries' text at `p`; `obj` holds smaller keys already read. */
  lemma {:induction false} EntriesOfDump(s: string, p0: nat, p: nat, t: nat, u: nat, es: seq<Entry<Json>>, w: nat, d: nat,
                                         obj: seq<Entry<Json>>, fmt: FloatFormat)
    requires p0 <= |s| && |es| != 0 && Sorted(es)
    requires ReadableEntries(es)
    requires Sorted(obj) && forall i :: 0 <= i < |obj| ==> ValidKey(obj[i].key)
    requires forall i, j :: 0 <= i < |obj| && 0 <= j < |es| ==> KeyLess(obj[i].key, es[j].key)
    requires OccursAt(s, DumpEntries(es, w, d + 1, fmt), p) && t == p + |DumpEntries(es, w, d + 1, fmt)|
    requires OccursAt(s, Closing(w, d), t) && u == t + |Closing(w, d)| && OccursAt(s, "}", u)
    requires SkipWs(s, p0) == SkipWs(s, p)
    ensures Peek(s, SkipWs(s, p0)) == '"'
    ensures ParseEntries(s, p0, obj) == Ok(Parsed(JObject(obj + ZeroedEntries(es)), u + 1))
    decreases es, 2
  {
    if |es| > 1 {
      EntriesMore(s, p0, p, t, u, es, w, d, obj, fmt);
    } else {
      EntriesLast(s, p0, p, t, u, es, w, d, obj, fmt);
    }
  }

  /** The first entry's text read as a member: its key at `a`, its value at
      `v` read back as `z`, ending at `q`. */
  lemma {:induction false} EntryRead(s: string, p0: nat, p: nat, es: seq<Entry<Json>>, w: nat, d: nat, fmt: FloatFormat)
    returns (q: nat, r: nat)
    requires p0 <= |s| && |es| != 0
    requires ValidKey(es[0].key) && Readable(es[0].val)
    requires OccursAt(s, DumpEntries(es, w, d + 1, fmt), p)
    requires SkipWs(s, p0) == SkipWs(s, p)
    requires |es| == 1 ==> !IsNumChar(Peek(s, p + |DumpEntries(es, w, d + 1, fmt)|))
    ensures Peek(s, SkipWs(s, p0)) == '"'
    ensures ParseMember(s, p0) == Ok(Member(es[0].key, Zeroed(es[0].val), q))
    ensures OccursAt(s, Separator(w, |es| > 1), q) && r == q + |Separator(w, |es| > 1)|
    ensures OccursAt(s, DumpEntries(es[1..], w, d + 1, fmt), r)
    ensures p + |DumpEntries(es, w, d + 1, fmt)| == r + |DumpEntries(es[1..], w, d + 1, fmt)|
    decreases es[0].val, 7
  {
    var a, v;
    a, v, q, r := EntryHead(s, p, es, w, d + 1, fmt);
    DumpAt(s, v, es[0].val, w, d + 1, fmt);
    assert !IsNumChar(Peek(s, q)) by {
      if |es| > 1 {
        CommaAt(s, q, r, w, |es| > 1);
      } else {
        assert r == q && |DumpEntries(es[1..], w, d + 1, fmt)| == 0;
      }
    }
    ParseOfDump(s, v, q, es[0].val, w, d + 1, fmt);
    MemberOfDump(s, p0, a, v, es[0].key, Zeroed(es[0].val), q);
  }

  /** Appending a valid key keeps every key valid. */
  lemma {:induction false} ValidKeysAppend(obj: seq<Entry<Json>>, e: Entry<Json>)
    requires forall i :: 0 <= i < |obj| ==> ValidKey(obj[i].key)
    requires ValidKey(e.key)
    ensures var updated := obj + [e]; forall i :: 0 <= i < |updated| ==> ValidKey(updated[i].key)
  {
  }

  /** The first of two or more entries read back, and the comma after it:
      the loop goes round at `q + 1` with the entry appended, and the rest
      of the entries are written at `r`. */
  lemma {:induction false} EntryStep(s: string, p0: nat, p: nat, es: seq<Entry<Json>>, w: nat, d: nat,
                                     obj: seq<Entry<Json>>, fmt: FloatFormat)
    returns (q: nat, r: nat)
    requires p0 <= |s| && |es| > 1
    requires ValidKey(es[0].key) && Readable(es[0].val)
    requires Sorted(obj) && forall i :: 0 <= i < |obj| ==> ValidKey(obj[i].key)
    requires forall i :: 0 <= i < |obj| ==> KeyLess(obj[i].key, es[0].key)
    requires OccursAt(s, DumpEntries(es, w, d + 1, fmt), p)
    requires SkipWs(s, p0) == SkipWs(s, p)
    ensures Peek(s, SkipWs(s, p0)) == '"'
    ensures var updated := obj + [Entry(es[0].key, Zeroed(es[0].val))];
            && Sorted(updated) && (forall i :: 0 <= i < |updated| ==> ValidKey(updated[i].key))
            && q + 1 <= |s| && ParseEntries(s, p0, obj) == ParseEntries(s, q + 1, updated)
    ensures OccursAt(s, DumpEntries(es[1..], w, d + 1, fmt), r)
    ensures p + |DumpEntries(es, w, d + 1, fmt)| == r + |DumpEntries(es[1..], w, d + 1, fmt)|
    ensures SkipWs(s, q + 1) == SkipWs(s, r)
    decreases es, 0
  {
    var z := Zeroed(es[0].val);
    q, r := EntryRead(s, p0, p, es, w, d, fmt);
    CommaAt(s, q, r, w, |es| > 1);
    PutAppend(obj, es[0].key, z);
    SkipAt(s, q);
    EntriesContinue(s, p0, obj, es[0].key, z, q, q);
    ValidKeysAppend(obj, Entry(es[0].key, z));
  }

  /** The entry loop over two or more entries: the first, a comma, and the
      loop over the rest. */
  lemma {:induction false} EntriesMore(s: string, p0: nat, p: nat, t: nat, u: nat, es: seq<Entry<Json>>, w: nat, d: nat,
                                       obj: seq<Entry<Json>>, fmt: FloatFormat)
    requires p0 <= |s| && |es| > 1 && Sorted(es)
    requires ReadableEntries(es)
    requires Sorted(obj) && forall i :: 0 <= i < |obj| ==> ValidKey(obj[i].key)
    requires forall i, j :: 0 <= i < |obj| && 0 <= j < |es| ==> KeyLess(obj[i].key, es[j].key)
    requires OccursAt(s, DumpEntries(es, w, d + 1, fmt), p) && t == p + |DumpEntries(es, w, d + 1, fmt)|
    requires OccursAt(s, Closing(w, d), t) && u == t + |Closing(w, d)| && OccursAt(s, "}", u)
    requires SkipWs(s, p0) == SkipWs(s, p)
    ensures Peek(s, SkipWs(s, p0)) == '"'
    ensures ParseEntries(s, p0, obj) == Ok(Parsed(JObject(obj + ZeroedEntries(es)), u + 1))
    decreases es, 1
  {
    var q, r := EntryStep(s, p0, p, es, w, d, obj, fmt);
    var updated := obj + [Entry(es[0].key, Zeroed(es[0].val))];
    SortedTail(es);
    KeysBelow(obj, es, Zeroed(es[0].val));
    EntriesOfDump(s, q + 1, r, t, u, es[1..], w, d, updated, fmt);
    ZeroedEntriesCons(obj, es);
  }

  /** A closing brace with only valid keys stored: the Object is built. */
  lemma {:induction false} ObjectClosed(s: string, u: nat, obj: seq<Entry<Json>>)
    requires u < |s| && s[u] == '}'
    requires Sorted(obj) && forall i :: 0 <= i < |obj| ==> ValidKey(obj[i].key)
    ensures CloseObject(s, u, obj) == Ok(Parsed(JObject(obj), u + 1))
  {
  }

  /** The entry loop over the last entry: it, then the closing brace. */
  lemma {:induction false} EntriesLast(s: string, p0: nat, p: nat, t: nat, u: nat, es: seq<Entry<Json>>, w: nat, d: nat,
                                       obj: seq<Entry<Json>>, fmt: FloatFormat)
    requires p0 <= |s| && |es| == 1
    requires ReadableEntries(es)
    requires Sorted(obj) && forall i :: 0 <= i < |obj| ==> ValidKey(obj[i].key)
    requires forall i :: 0 <= i < |obj| ==> KeyLess(obj[i].key, es[0].key)
    requires OccursAt(s, DumpEntries(es, w, d + 1, fmt), p) && t == p + |DumpEntries(es, w, d + 1, fmt)|
    requires OccursAt(s, Closing(w, d), t) && u == t + |Closing(w, d)| && OccursAt(s, "}", u)
    requires SkipWs(s, p0) == SkipWs(s, p)
    ensures Peek(s, SkipWs(s, p0)) == '"'
    ensures ParseEntries(s, p0, obj) == Ok(Parsed(JObject(obj + ZeroedEntries(es)), u + 1))
    decreases es, 1
  {
    var q := LastEntryText(s, p0, p, t, u, es, w, d, fmt);
    EntriesClose(s, p0, obj, es[0].key, Zeroed(es[0].val), q, u);
    ZeroedEntriesOne(obj, es);
  }

  /** The text of the last entry read as a member ending at `q`, then
      whitespace up to the closing brace at `u`. */
  lemma {:induction false} LastEntryText(s: string, p0: nat, p: nat, t: nat, u: nat, es: seq<Entry<Json>>, w: nat, d: nat,
                                         fmt: FloatFormat)
    returns (q: nat)
    requires p0 <= |s| && |es| == 1
    requires ValidKey(es[0].key) && Readable(es[0].val)
    requires OccursAt(s, DumpEntries(es, w, d + 1, fmt), p) && t == p + |DumpEntries(es, w, d + 1, fmt)|
    requires OccursAt(s, Closing(w, d), t) && u == t + |Closing(w, d)| && OccursAt(s, "}", u)
    requires SkipWs(s, p0) == SkipWs(s, p)
    ensures Peek(s, SkipWs(s, p0)) == '"'
    ensures ParseMember(s, p0) == Ok(Member(es[0].key, Zeroed(es[0].val), q))
    ensures SkipWs(s, q) == u && u < |s| && s[u] == '}'
    decreases es, 0
  {
    ClosingAt(s, t, u, w, d, '}');
    var r;
    q, r := EntryRead(s, p0, p, es, w, d, fmt);
    assert r == q && |DumpEntries(es[1..], w, d + 1, fmt)| == 0;
  }

  /** A last member with a key above every stored one, then the closing
      brace at `u`: the loop appends it and builds the Object. */
  lemma {:induction false} EntriesClose(s: string, p0: nat, obj: seq<Entry<Json>>, key: string, z: Json, q: nat, u: nat)
    requires p0 <= |s| && ParseMember(s, p0) == Ok(Member(key, z, q))
    requires Sorted(obj) && forall i :: 0 <= i < |obj| ==> ValidKey(obj[i].key)
    requires ValidKey(key) && forall i :: 0 <= i < |obj| ==> KeyLess(obj[i].key, key)
    requires SkipWs(s, q) == u && u < |s| && s[u] == '}'
    ensures ParseEntries(s, p0, obj) == Ok(Parsed(JObject(obj + [Entry(key, z)]), u + 1))
  {
    PutAppend(obj, key, z);
    EntriesStop(s, p0, obj, key, z, q, u);
    ValidKeysAppend(obj, Entry(key, z));
    ObjectClosed(s, u, obj + [Entry(key, z)]);
  }

  // ---------------------------------------------------------------- round trips

  /** `load(dump<width>(v))` gives `v` back with every `int` read as 0, for
      every value without strings or doubles whose keys are valid. */
  lemma {:induction false} LoadOfDump(v: Json, width: nat, fmt: FloatFormat)
    requires Plain(v) && WellFormed(v)
    ensures Load(DumpTop(v, width, fmt)) == Ok(Zeroed(v))
  {
    var s := DumpTop(v, width, fmt);
    var t := Dump(v, width, 0, true, fmt);
    DumpLead(v, width, 0, fmt);
    OccursSuffix(s, 0);
    assert s[0..] == s;
    OccursSplit(s, Indent(width, 0), t, 0, 0);
    PlainReadable(v);
    ParseOfDump(s, 0, |t|, v, width, 0, fmt);
  }

  // ---------------------------------------------------------------- strings

  /** A character the string loop reads back from its escape: anything but
      the three control characters it decodes as letters, and the NUL that
      ends the text. */
  predicate Survives(c: char) {
    c != '\t' && c != '\n' && c != '\r' && c != '\0'
  }

  /** The string loop over escaped text followed by a quote decodes it:
      a plain character is copied, and a backslash before `"`, `'` or `\`
      yields that character and skips both. */
  lemma {:induction false} LexEscaped(s: string, i: nat, t: string)
    requires forall k :: 0 <= k < |t| ==> Survives(t[k])
    requires OccursAt(s, Escape(t), i) && Peek(s, i + |Escape(t)|) == '"'
    ensures LexString(s, i) == Lexed(t, i + |Escape(t)|)
    decreases |t|
  {
    if |t| == 0 {
      assert Escape(t) == "";
    } else {
      var e, rest := EscapeChar(t[0]), Escape(t[1..]);
      assert Escape(t) == e + rest;
      OccursSplit(s, e, rest, i, i + |e|);
      LexEscaped(s, i + |e|, t[1..]);
      LexOne(s, i, t[0]);
      assert t == [t[0]] + t[1..];
    }
  }

  /** One escaped character: the string loop emits it and moves past its
      escape. */
  lemma {:induction false} LexOne(s: string, i: nat, c: char)
    requires Survives(c) && OccursAt(s, EscapeChar(c), i)
    ensures i + |EscapeChar(c)| <= |s|
    ensures LexString(s, i) == Prepend(c, LexString(s, i + |EscapeChar(c)|))
  {
    var e := EscapeChar(c);
    OccursHead(s, e, i);
    if |e| == 2 {
      OccursIndex(s, e, i, 1);
    }
  }

  /** A string without tab, newline, carriage return or NUL is read back
      from its text at the top level, escapes included. */
  lemma {:induction false} StringRoundTrip(t: string, width: nat, fmt: FloatFormat)
    requires forall i :: 0 <= i < |t| ==> Survives(t[i])
    ensures Load(DumpTop(JString(t), width, fmt)) == Ok(JString(t))
  {
    var s := DumpTop(JString(t), width, fmt);
    StringText(t, width, fmt);
    OccursSuffix(s, 0);
    assert s[0..] == s;
    QuotedLoad(s, t);
  }

  /** A string value's text: the escaped string in quotes. */
  lemma StringText(t: string, width: nat, fmt: FloatFormat)
    ensures DumpTop(JString(t), width, fmt) == ['"'] + Escape(t) + "" + ['"']
  {
    assert Scalar(JString(t), fmt) == "\"" + Escape(t) + "\"";
  }

  /** Escaped text in quotes at the start loads as the text. */
  lemma {:induction false} QuotedLoad(s: string, t: string)
    requires forall i :: 0 <= i < |t| ==> Survives(t[i])
    requires OccursAt(s, ['"'] + Escape(t) + "" + ['"'], 0)
    ensures Load(s) == Ok(JString(t))
  {
    var body := Escape(t);
    var a, u := Bracketed(s, 0, '"', body, "", '"');
    OccursHead(s, ['"'], u);
    LexEscaped(s, 1, t);
    assert SkipWs(s, 0) == 0;
    LoadOfParse(s, Ok(Parsed(JString(t), 1 + |body|)));
  }

  /** A tab is written as backslash and `t`, which the reader decodes as
      the letter twice: the string does not survive. */
  lemma TabRoundTrip(width: nat, fmt: FloatFormat)
    ensures Load(DumpTop(JString("\t"), width, fmt)) == Ok(JString("tt"))
  {
    assert Escape("\t") == "\\t";
    assert DumpTop(JString("\t"), width, fmt) == "\"\\t\"";
    TabDecodesTwice();
  }

  lemma TwoStringsText()
    ensures "[" + ("\"a\"" + ", " + "\"b\"") + "]" == TwoStrings
  {
  }

  /** An array of two strings, written compactly, reads back as its first
      string alone. */
  lemma StringsInArrayLost(fmt: FloatFormat)
    ensures Load(DumpTop(JArray([JString("a"), JString("b")]), 0, fmt)) == Ok(JArray([JString("a")]))
  {
    CompactPair(JString("a"), JString("b"), fmt);
    assert Escape("a") == "a" && Escape("b") == "b";
    assert Scalar(JString("a"), fmt) == "\"a\"" && Scalar(JString("b"), fmt) == "\"b\"";
    TwoStringsText();
    TwoStringsArray();
  }

  /** Two scalars in an array, written compactly. */
  lemma CompactPair(x: Json, y: Json, fmt: FloatFormat)
    requires !x.JArray? && !x.JObject? && !y.JArray? && !y.JObject?
    ensures DumpTop(JArray([x, y]), 0, fmt) == "[" + (Scalar(x, fmt) + ", " + Scalar(y, fmt)) + "]"
  {
    var es := [x, y];
    CompactLayout(JArray(es), 0, false, fmt);
    assert es[1..] == [y];
    var a, b := Compact(x, fmt), Compact(y, fmt);
    assert CompactItems(es, fmt) == [a] + CompactItems([y], fmt);
    assert CompactItems([y], fmt) == [b];
    JoinFront(", ", a, [b]);
  }
}

=== FILE: serializer.dfy ===
/** The serialiser: `dump<indent_amount>()` and the recursive writer
    `_dump` (JSON.h lines 119-124 and 138-198). */
module Serializer {
  import opened Chars
  import opened OrderedMaps
  import opened Values
  import opened Escaping

  /** How `stream << double` renders a `double`; the model leaves it open. */
  type FloatFormat = Float64 -> string

  // ---------------------------------------------------------------- integers

  function DigitChar(d: nat): (c: char)
    requires d < 10
    ensures IsDigit(c)
  {
    ('0' as int + d) as char
  }

  /** Decimal digits of a natural number, most significant first. */
  function NatText(n: nat): (r: string)
    ensures |r| != 0
    ensures forall i :: 0 <= i < |r| ==> IsDigit(r[i])
    ensures n != 0 ==> r[0] != '0'
  {
    if n < 10 then [DigitChar(n)] else NatText(n / 10) + [DigitChar(n % 10)]
  }

  /** `stream << int`: optional minus sign, then the decimal digits. */
  function IntText(n: int32): (r: string)
    ensures |r| != 0
    ensures forall i :: 0 <= i < |r| ==> IsNumChar(r[i])
    ensures (r[0] == '-') <==> n < 0
  {
    if n < 0 then "-" + NatText(-(n as int)) else NatText(n as int)
  }

  /** The value of a run of decimal digits, the reading of a digit string. */
  function DigitsValue(ds: string): nat
    requires forall i :: 0 <= i < |ds| ==> IsDigit(ds[i])
  {
    if |ds| == 0 then 0
    else
      var last := ds[|ds| - 1];
      assert IsDigit(last);
      DigitsValue(ds[..|ds| - 1]) * 10 + (last as int - '0' as int)
  }

  predicate AllDigits(ds: string) {
    forall i :: 0 <= i < |ds| ==> IsDigit(ds[i])
  }

  /** The value of an optionally negative decimal numeral. */
  function SignedValue(t: string): int
    requires |t| != 0 && (if t[0] == '-' then AllDigits(t[1..]) else AllDigits(t))
  {
    if t[0] == '-' then 0 - DigitsValue(t[1..]) else DigitsValue(t)
  }

  /** The digits written for `n` read back as `n`. */
  lemma {:induction false} NatTextValue(n: nat)
    ensures DigitsValue(NatText(n)) == n
  {
    if n >= 10 {
      NatTextValue(n / 10);
      var t := NatText(n);
      assert t[..|t| - 1] == NatText(n / 10);
    }
  }

  /** The text written for an `int` reads back as that `int`. */
  lemma IntTextValue(n: int32)
    ensures var t := IntText(n);
            (if t[0] == '-' then AllDigits(t[1..]) else AllDigits(t)) && SignedValue(t) == n as int
  {
    if n < 0 {
      NatTextValue(-(n as int));
      assert IntText(n)[1..] == NatText(-(n as int));
    } else {
      NatTextValue(n as int);
    }
  }

  // ---------------------------------------------------------------- layout pieces

  function Spaces(n: nat): (r: string)
    ensures |r| == n && forall i :: 0 <= i < n ==> r[i] == ' '
  {
    seq(n, _ => ' ')
  }

  /** `depth` copies of the `indent` array, which holds `width` spaces. */
  function Indent(width: nat, depth: nat): string
  {
    if depth == 0 then "" else Spaces(width) + Indent(width, depth - 1)
  }

  /** The `'\n'` written only in indented mode. */
  function Newline(width: nat): string
  {
    if width != 0 then "\n" else ""
  }

  /** After every element but the last: a comma, and in compact mode a space. */
  function Separator(width: nat, more: bool): string
  {
    if !more then "" else if width == 0 then ", " else ","
  }

  /** Before a closing bracket: a line break and the indentation of the
      enclosing depth in indented mode, nothing in compact mode. */
  function Closing(width: nat, depth: nat): string
  {
    Newline(width) + Indent(width, depth)
  }

  /** An Object key as written before its value: in quotes, unescaped, then
      a colon and a space. */
  function KeyText(key: string): string
  {
    "\"" + key + "\": "
  }

  /** The text of the four scalar alternatives and of strings. */
  function Scalar(v: Json, fmt: FloatFormat): string
    requires !v.JArray? && !v.JObject?
  {
    match v
    case JNull => "null"
    case JString(str) => "\"" + Escape(str) + "\""
    case JInt(n) => IntText(n)
    case JFloat(f) => fmt(f)
    case JBool(b) => if b then "true" else "false"
  }

  // ---------------------------------------------------------------- the writer

  /** `_dump<width>(stream, depth, firstLine)`: the value's own indentation
      unless `firstLine`, then the value.  Array elements are written at
      `depth + 1` with their own indentation; Object entries get their
      indentation written before the key and their value is written inline. */
  function Dump(v: Json, width: nat, depth: nat, firstLine: bool, fmt: FloatFormat): string
    decreases v
  {
    (if firstLine then "" else Indent(width, depth)) +
    match v
    case JArray(es) => "[" + DumpElems(es, width, depth + 1, fmt) + Closing(width, depth) + "]"
    case JObject(es) => "{" + DumpEntries(es, width, depth + 1, fmt) + Closing(width, depth) + "}"
    case _ => Scalar(v, fmt)
  }

  /** The loop over an array's elements. */
  function DumpElems(es: seq<Json>, width: nat, depth: nat, fmt: FloatFormat): string
    decreases es
  {
    if |es| == 0 then ""
    else
      Newline(width) + Dump(es[0], width, depth, false, fmt) + Separator(width, |es| > 1)
      + DumpElems(es[1..], width, depth, fmt)
  }

  /** The loop over an Object's entries, in key order; keys are not escaped. */
  function DumpEntries(es: seq<Entry<Json>>, width: nat, depth: nat, fmt: FloatFormat): string
    decreases es
  {
    if |es| == 0 then ""
    else
      Newline(width) + Indent(width, depth) + KeyText(es[0].key)
      + Dump(es[0].val, width, depth, true, fmt) + Separator(width, |es| > 1)
      + DumpEntries(es[1..], width, depth, fmt)
  }

  /** `dump<width>()`. */
  function DumpTop(v: Json, width: nat, fmt: FloatFormat): string
  {
    Dump(v, width, 0, false, fmt)
  }
}

=== FILE: values.dfy ===
/** The `JSON` value of JSON.h: a closed tagged union over string, int,
    double, bool, Object, array and null, with its constructors, typed
    access and the two index operators. */
module Values {
  import opened Outcomes
  import opened Chars
  import opened OrderedMaps

  /** The C++ `int` payload. */
  newtype int32 = x: int | -0x8000_0000 <= x < 0x8000_0000

  /** A `double` payload, kept opaque as its bit pattern. */
  datatype Float64 = Float64(bits: bv64)

  /** The alternatives of `std::variant<std::string, int, double, bool,
      Object, std::vector<JSON>, std::nullptr_t>`, in that order.  An Object
      is a `std::map<std::string, JSON>`. */
  datatype Json =
    | JString(str: string)
    | JInt(num: int32)
    | JFloat(dbl: Float64)
    | JBool(b: bool)
    | JObject(obj: seq<Entry<Json>>)
    | JArray(arr: seq<Json>)
    | JNull

  /** Every Object in the tree satisfies the `std::map` invariant. */
  predicate WellFormed(v: Json)
    decreases v
  {
    match v
    case JObject(es) => Sorted(es) && forall e | e in es :: WellFormed(e.val)
    case JArray(es) => forall e | e in es :: WellFormed(e)
    case _ => true
  }

  /** Every key in the tree would pass the Object constructor's check. */
  predicate ValidKeys(v: Json)
    decreases v
  {
    match v
    case JObject(es) => forall e | e in es :: ValidKey(e.key) && ValidKeys(e.val)
    case JArray(es) => forall e | e in es :: ValidKeys(e)
    case _ => true
  }

  // ---------------------------------------------------------------- typed access

  /** The type arguments `holds<T>` and `get<T>` accept: the seven
      alternatives, plus `float`. */
  datatype Alternative = AString | AInt | ADouble | AFloat | ABool | AObject | AArray | ANull

  /** `holds<T>()`; `holds<float>()` is `holds<double>()`. */
  predicate Holds(v: Json, t: Alternative) {
    match t
    case AString => v.JString?
    case AInt => v.JInt?
    case ADouble => v.JFloat?
    case AFloat => v.JFloat?
    case ABool => v.JBool?
    case AObject => v.JObject?
    case AArray => v.JArray?
    case ANull => v.JNull?
  }

  predicate IsNull(v: Json) { Holds(v, ANull) }
  predicate IsString(v: Json) { Holds(v, AString) }
  predicate IsInt(v: Json) { Holds(v, AInt) }
  predicate IsFloat(v: Json) { Holds(v, ADouble) }
  predicate IsBool(v: Json) { Holds(v, ABool) }
  predicate IsObject(v: Json) { Holds(v, AObject) }
  predicate IsArray(v: Json) { Holds(v, AArray) }

  function Count(b: bool): nat {
    if b then 1 else 0
  }

  /** Exactly one of the seven `is_*` predicates holds of any value. */
  lemma ExactlyOneIs(v: Json)
    ensures Count(IsNull(v)) + Count(IsString(v)) + Count(IsInt(v)) + Count(IsFloat(v))
            + Count(IsBool(v)) + Count(IsObject(v)) + Count(IsArray(v)) == 1
  {
  }

  /** Two type arguments both hold only if they are the same, or are
      `double` and `float`. */
  lemma HoldsUnique(v: Json, t: Alternative, u: Alternative)
    requires Holds(v, t) && Holds(v, u)
    ensures t == u || (t in {ADouble, AFloat} && u in {ADouble, AFloat})
  {
  }

  /** `get<std::string>()`. */
  function GetString(v: Json): (r: Result<string>)
    ensures r.Ok? <==> Holds(v, AString)
    ensures r.Ok? ==> JString(r.value) == v
    ensures !r.Ok? ==> r == Fail(BadAccess)
  {
    if v.JString? then Ok(v.str) else Fail(BadAccess)
  }

  /** `get<int>()`. */
  function GetInt(v: Json): (r: Result<int32>)
    ensures r.Ok? <==> Holds(v, AInt)
    ensures r.Ok? ==> JInt(r.value) == v
    ensures !r.Ok? ==> r == Fail(BadAccess)
  {
    if v.JInt? then Ok(v.num) else Fail(BadAccess)
  }

  /** `get<double>()`. */
  function GetDouble(v: Json): (r: Result<Float64>)
    ensures r.Ok? <==> Holds(v, ADouble)
    ensures r.Ok? ==> JFloat(r.value) == v
    ensures !r.Ok? ==> r == Fail(BadAccess)
  {
    if v.JFloat? then Ok(v.dbl) else Fail(BadAccess)
  }

  /** `get<float>()` is `get<double>()` (the narrowing itself is not modelled). */
  function GetFloat(v: Json): (r: Result<Float64>)
    ensures r.Ok? <==> Holds(v, AFloat)
    ensures r == GetDouble(v)
  {
    GetDouble(v)
  }

  /** `get<bool>()`. */
  function GetBool(v: Json): (r: Result<bool>)
    ensures r.Ok? <==> Holds(v, ABool)
    ensures r.Ok? ==> JBool(r.value) == v
    ensures !r.Ok? ==> r == Fail(BadAccess)
  {
    if v.JBool? then Ok(v.b) else Fail(BadAccess)
  }

  /** `get<Object>()`. */
  function GetObject(v: Json): (r: Result<seq<Entry<Json>>>)
    ensures r.Ok? <==> Holds(v, AObject)
    ensures r.Ok? ==> JObject(r.value) == v
    ensures !r.Ok? ==> r == Fail(BadAccess)
  {
    if v.JObject? then Ok(v.obj) else Fail(BadAccess)
  }

  /** `get<std::vector<JSON>>()`. */
  function GetArray(v: Json): (r: Result<seq<Json>>)
    ensures r.Ok? <==> Holds(v, AArray)
    ensures r.Ok? ==> JArray(r.value) == v
    ensures !r.Ok? ==> r == Fail(BadAccess)
  {
    if v.JArray? then Ok(v.arr) else Fail(BadAccess)
  }

  /** `get<std::nullptr_t>()`. */
  function GetNull(v: Json): (r: Result<()>)
    ensures r.Ok? <==> Holds(v, ANull)
    ensures r.Ok? ==> v == JNull
    ensures !r.Ok? ==> r == Fail(BadAccess)
  {
    if v.JNull? then Ok(()) else Fail(BadAccess)
  }

  // ---------------------------------------------------------------- constructors

  /** `JSON()`: the default value is an empty Object, not null. */
  function Default(): (r: Json)
    ensures IsObject(r) && !IsNull(r)
    ensures GetObject(r) == Ok([])
  {
    JObject([])
  }

  /** The inner loop of the Object constructor over one key. */
  function ScanKey(k: string): (ok: bool)
    ensures ok <==> ValidKey(k)
  {
    |k| == 0 || (IsKeyChar(k[0]) && ScanKey(k[1..]))
  }

  /** The outer loop of the Object constructor over the entries. */
  function ScanKeys(m: seq<Entry<Json>>): (ok: bool)
    ensures ok <==> forall i :: 0 <= i < |m| ==> ValidKey(m[i].key)
  {
    |m| == 0 || (ScanKey(m[0].key) && ScanKeys(m[1..]))
  }

  /** `JSON(const Object&)`: stores the map, but throws when some key holds a
      character that is neither alphanumeric nor `_`. */
  function FromObject(m: seq<Entry<Json>>): (r: Result<Json>)
    requires Sorted(m)
    ensures r.Fail? <==> exists i :: 0 <= i < |m| && !ValidKey(m[i].key)
    ensures r.Fail? ==> r.error == BadObjectKey
    ensures r.Ok? ==> r.value == JObject(m)
    ensures !r.Undefined?
  {
    if ScanKeys(m) then Ok(JObject(m)) else Fail(BadObjectKey)
  }

  /** An empty key has no character to reject. */
  lemma EmptyKeyAccepted(v: Json)
    ensures FromObject([Entry("", v)]) == Ok(JObject([Entry("", v)]))
  {
  }

  // ---------------------------------------------------------------- index operators

  /** `operator[](size_t)`: a copy of the element.  The vector index is
      unchecked, so an index past the end is undefined behaviour. */
  function IndexAt(v: Json, index: nat): (r: Result<Json>)
    ensures r.Fail? <==> !IsArray(v)
    ensures r.Fail? ==> r.error == BadArrayAccess
    ensures r.Undefined? <==> IsArray(v) && index >= |v.arr|
    ensures r.Ok? ==> r.value in v.arr && r.value == v.arr[index]
  {
    if v.JArray? then
      if index < |v.arr| then Ok(v.arr[index]) else Undefined
    else
      Fail(BadArrayAccess)
  }

  /** The outcome of `operator[](key)`: the returned copy, and the receiver
      as the call leaves it. */
  datatype Indexed = Indexed(elem: Json, receiver: Json)

  /** `operator[](const std::string&)`: on an Object, `std::map::operator[]`
      inserts a default `JSON` (an empty Object) under a missing key and the
      operator returns a copy of the entry.  The key is not checked. */
  function IndexKey(v: Json, key: string): (r: Result<Indexed>)
    requires WellFormed(v)
    ensures !r.Undefined?
    ensures r.Fail? <==> !IsObject(v)
    ensures r.Fail? ==> r.error == BadMapAccess
    ensures r.Ok? ==> r.value.receiver.JObject? && WellFormed(r.value.receiver)
    ensures r.Ok? ==> Lookup(r.value.receiver.obj, key) == Some(r.value.elem)
    ensures r.Ok? && key in KeysOf(v.obj) ==> r.value.receiver == v
    ensures r.Ok? && key !in KeysOf(v.obj) ==>
              r.value.elem == Default() && KeysOf(r.value.receiver.obj) == KeysOf(v.obj) + {key}
    ensures r.Ok? ==> forall k :: k != key ==> Lookup(r.value.receiver.obj, k) == Lookup(v.obj, k)
  {
    match v
    case JObject(es) =>
      (match Lookup(es, key)
       case Some(x) => Ok(Indexed(x, v))
       case None => Ok(Indexed(Default(), JObject(Put(es, key, Default())))))
    case _ => Fail(BadMapAccess)
  }

  /** Indexing the same key again finds the entry the first call created and
      changes nothing more. */
  lemma IndexKeyAgain(v: Json, key: string)
    requires WellFormed(v) && IsObject(v)
    ensures var first := IndexKey(v, key).value;
            IndexKey(first.receiver, key) == Ok(first)
  {
  }
}
